=== FILE: README.md ===
# Shipment tracking lookup — a Dafny model

This project models the pure core of a small shipment-tracking web app. The app reads a spreadsheet of orders and lets a customer look an order up by order number ("Pedido") or invoice number ("Nota Fiscal"). It then shows a status badge and how long the shipment took or still has to go. The model covers:

- **Dates** (`parseDate`, `calculateDays` in hooks/use-tracking.ts). Text is read as Brazilian `dd/MM/yyyy` first and kept only when it names a real calendar date. Otherwise the untrimmed text is read as ISO 8601. Empty, white-space-only and `"N/A"` text give nothing. A day count is the signed number of whole days from start to end, truncated toward zero, with "now" standing in for a missing end.
- **Status engine** (`getTrackingStatus`). The first rule that matches wins, in the order delivered, delayed, shipped, pending. Each status has a fixed label and colour.
- **Record normalizer** (`validateAndCleanData`). It keeps the rows that are objects with a truthy numeric-or-text `Pedido` or `Nota Fiscal`. It coerces every column with a default, drops a row whose coercion throws, and keeps row order.
- **Search** (the `find` callback of `useTrackingSearch`). It returns the first record whose order or invoice number, as text, contains the trimmed query.
- **Result view** (`TrackingResult` in components/tracking-result.tsx). It derives the two day counts, which timing box shows, the red "Atrasado há" or blue "Faltam" choice, and the singular or plural unit words.

Modules, one per file:

- `Wrappers`: `Option`.
- `Text`: JavaScript `trim`, `includes`, the decimal text of integers, and the truthiness of optional text.
- `Calendar`: proleptic Gregorian dates, day numbers and the whole-day difference.
- `Dates`: `parseDate` and `calculateDays`.
- `Tracking`: the record and status types of types/tracking.ts.
- `StatusEngine`, `Normalizer`, `Search` and `ResultView`: the operations described above.

Modelling choices:

- An instant is an integer count of milliseconds since 1970-01-01 00:00 in one local time zone with no daylight-saving shifts. The clock reading `now` is always a parameter.
- The ISO fallback is modelled for the exact `yyyy-MM-dd` shape, read as local midnight. Every other text goes to an `IsoReader`, a caller-supplied partial function standing for the rest of date-fns' `parseISO`.
- JavaScript numbers are `NaN` or an integer. A raw cell is `Absent`, text, a number, or any other value described by its truthiness and by what `String()` and `Number()` make of it. A conversion that throws is `None` there, which makes the row-dropping `catch` reachable.
- Exact matches get no priority in search. Equality implies containment, so an exact match later in the feed does not beat an earlier record that contains the query (`Search.ContainingBeatsExact`).

## Model

| member | source | states |
|---|---|---|
| Dates.ParseDate | hooks/use-tracking.ts:10-26 | Empty, white-space-only and `"N/A"` text give no date. Text whose trimmed form is not a real `dd/MM/yyyy` date gets the ISO reading of the untrimmed text. |
| Dates.ParseBrFormatBr | hooks/use-tracking.ts:15-16 | Reading `dd/MM/yyyy` is the exact inverse of writing a real date that way. |
| Dates.ParseBr | hooks/use-tracking.ts:15-16 | The first format accepts only real calendar dates, with year 1 to 9999, and only their canonical spelling. |
| Dates.BrReadingWins | hooks/use-tracking.ts:15-20 | Text that trims to a real `dd/MM/yyyy` date parses to that date's midnight, whatever the ISO reading would give. |
| Dates.ImpossibleDateRejected | hooks/use-tracking.ts:15-20 | `31/02/2025` is rejected by the first format and is left to the ISO reading. |
| Dates.NoDateText | hooks/use-tracking.ts:11 | `""`, `"N/A"` and white space parse to nothing. |
| Dates.FebruaryThirtyFirst | hooks/use-tracking.ts:15-16 | February 2025 has 28 days, so `31/02/2025` fails the `dd/MM/yyyy` reading. |
| Dates.YmdReading | hooks/use-tracking.ts:19-20 | `yyyy-MM-dd` text of a real date parses to its midnight through the ISO fallback. |
| Dates.ParseIso | hooks/use-tracking.ts:19-20 | `parseISO` then `isValid`: text of the exact `yyyy-MM-dd` shape gives the midnight of the date it names, or nothing when that is no real date. Every other text gets what the ISO reader makes of it. |
| Dates.ParseYmd | hooks/use-tracking.ts:19-20 | The `yyyy-MM-dd` reading accepts only real calendar dates with years 0 to 9999, and only their canonical zero-padded spelling. |
| Dates.ParseYmdFormatYmd | hooks/use-tracking.ts:19-20 | Reading `yyyy-MM-dd` inverts writing a real date in that form. |
| Text.TruthyText | hooks/use-tracking.ts:32 | An optional text is truthy when it is present and not empty, as in `endDate ? … : …` and `data['Data de Entrega'] ? … : …`. |
| Dates.CalculateDays | hooks/use-tracking.ts:28-36 | No answer when the start does not parse, or when a truthy end does not parse. With a parsed end, the answer is the truncated whole days from start to end. With a falsy end, it is the truncated whole days from start to now. |
| Dates.DaysBetweenParsed | hooks/use-tracking.ts:28-36 | Two texts that parse give the whole-day difference of their instants. |
| Dates.DaysBetweenBrDates | hooks/use-tracking.ts:28-36 | Between two real `dd/MM/yyyy` dates the answer is the whole days between their midnights. |
| Dates.DaysBetweenExamples | hooks/use-tracking.ts:28-36 | `01/01/2025` to `05/01/2025` is 4, the reverse is -4, and an `"N/A"` start gives nothing. |
| Calendar.DiffDays | hooks/use-tracking.ts:35 | `differenceInDays` is the number of whole days in the gap, truncated toward zero, for either sign. |
| Calendar.DiffDaysOfMidnights | hooks/use-tracking.ts:35 | Between two midnights the difference is exactly the difference of the day numbers. |
| Calendar.DiffDaysAntisymmetric | hooks/use-tracking.ts:35 | Swapping the arguments negates the difference. |
| Calendar.DateOfDay | components/tracking-result.tsx:17 | Every day number has a real calendar date with that number. |
| Calendar.DateOfDayNumber | components/tracking-result.tsx:17 | Day numbers identify dates: the date of a date's number is that date. |
| Calendar.NextDayIsNextNumber | hooks/use-tracking.ts:35 | Day numbers count calendar days: the next calendar date, across month ends, year ends and leap days, has the next number. This is what makes a difference of day numbers a count of days. |
| Calendar.DateOfInstant | components/tracking-result.tsx:17 | The date of an instant is the real date whose day contains that instant. |
| StatusEngine.IsDelivered | hooks/use-tracking.ts:40-43 | The first rule holds when `Data de Entrega` is truthy and parses. |
| StatusEngine.IsOverdue | hooks/use-tracking.ts:41-52 | The second rule holds when `Previsao de Entrega` parses and now is strictly after it. |
| StatusEngine.IsShipped | hooks/use-tracking.ts:61-62 | The third rule holds when `Data de Envio` parses. |
| StatusEngine.GetTrackingStatus | hooks/use-tracking.ts:38-77 | Delivered iff the delivery date is truthy and parses. Otherwise delayed iff the expected date parses and now is strictly after it. Otherwise shipped iff the ship date parses. Otherwise pending. Each status comes with its fixed label and tone. |
| StatusEngine.DeliveredWhateverElse | hooks/use-tracking.ts:40-50 | A delivered record stays delivered whatever its ship and expected dates and whatever the time. |
| StatusEngine.StatusOverTime | hooks/use-tracking.ts:52 | As time passes a status can only turn into delayed, and delayed stays delayed. |
| StatusEngine.DueTodayIsDelayed | hooks/use-tracking.ts:52 | An undelivered record expected today is delayed once the clock is past midnight. |
| StatusEngine.LabelsDistinguishStates | hooks/use-tracking.ts:44-76 | The four labels differ, so the label tells the status. |
| Normalizer.Truthy | hooks/use-tracking.ts:92-111 | JavaScript truthiness of a cell: missing and empty text are falsy, and so are 0 and NaN. Any other value carries its own truthiness. |
| Normalizer.ToNumber | hooks/use-tracking.ts:100-109 | `Number(x)` of a cell. A missing cell is NaN, text is read by `StringToNumber`, and a number stays itself. Any other value gives its own conversion, or nothing when that throws. |
| Normalizer.ToText | hooks/use-tracking.ts:101-111 | `String(x)` of a cell. A missing cell is `undefined`, NaN is `NaN`, and an integer is its decimal text, written in full even from 1e21 on (see "## Left out"). Any other value gives its own conversion, or nothing when that throws. |
| Normalizer.StringToNumber | hooks/use-tracking.ts:100 | `Number` of blank text is 0. |
| Normalizer.NumberOfIntText | hooks/use-tracking.ts:100 | `Number(String(i))` is `i` for every integer. |
| Normalizer.NumberOr | hooks/use-tracking.ts:100 | `x ? Number(x) \|\| d : d` gives the default for a falsy cell. Any other result is the non-zero number of the cell. |
| Normalizer.TextOr | hooks/use-tracking.ts:101-111 | `x ? String(x).trim() : d` gives the default for a falsy cell, else the trimmed text. A trimmed default makes a trimmed result. |
| Normalizer.OptionalText | hooks/use-tracking.ts:103 | The delivery date is absent exactly when its cell is falsy. Otherwise it is the trimmed text. |
| Normalizer.RowThrows | hooks/use-tracking.ts:98-116 | The `catch` runs when some truthy cell's `Number` or `String` conversion throws. Only the columns the literal reads can throw, and `Valor do Transporte` is not one of them. |
| Normalizer.Coerce | hooks/use-tracking.ts:99-112 | The record built from a row has every text column trimmed, a non-zero quantity and no shipping value. |
| Normalizer.CleanRow | hooks/use-tracking.ts:97-117 | A row is dropped exactly when one of its coercions throws. A kept record has trimmed texts and a non-zero quantity, and no shipping value. Falsy cells get their defaults: 0 for both identifiers, 1 for the quantity, `R$ 0,00` for the product value, `N/A` for each of the seven other text columns, and an absent delivery date. |
| Normalizer.Accepts | hooks/use-tracking.ts:87-96 | The filter keeps an object whose `Pedido` or `Nota Fiscal` is a truthy number or text. |
| Normalizer.CleanItem | hooks/use-tracking.ts:86-117 | An element yields a record only if the filter accepts it, and then the record is its row's coercion. |
| Normalizer.Clean | hooks/use-tracking.ts:86-118 | The output is never longer than the input. |
| Normalizer.ValidateAndClean | hooks/use-tracking.ts:80-119 | Input that is not an array gives `[]`. An array gives the filtered and coerced rows. |
| Normalizer.CleanAppend | hooks/use-tracking.ts:86-118 | Rows are cleaned one by one: cleaning a concatenation concatenates the results, so surviving rows keep their order. |
| Normalizer.CleanFromSurvivor | hooks/use-tracking.ts:87-96 | Every output record is the coercion of an input row with a truthy numeric-or-text `Pedido` or `Nota Fiscal`. |
| Normalizer.SurvivorInClean | hooks/use-tracking.ts:87-118 | Every accepted row whose coercion does not throw is in the output. |
| Normalizer.RowWithoutIdentifierDropped | hooks/use-tracking.ts:89-95 | A row without a usable identifier contributes nothing, wherever it stands. |
| Normalizer.ShippingValueIgnored | hooks/use-tracking.ts:99-112 | The `Valor do Transporte` cell changes neither the filter nor the record. |
| Normalizer.CleanRowOfExport | hooks/use-tracking.ts:97-112 | Normalizing the all-text row of a canonical record gives that record back. |
| Normalizer.OrderOnlyRow | hooks/use-tracking.ts:80-119 | `Pedido: "123"` alone gives one record with order 123, quantity 1 and every text default. Empty identifiers give nothing, and a non-array gives `[]`. |
| Normalizer.NonNumericIdentifierBecomesZero | hooks/use-tracking.ts:92-100 | Identifier text made of lower-case letters, such as `abc`, is truthy text that `Number` reads as NaN. It passes the filter and becomes order number 0. |
| Normalizer.NegativeQuantityKept | hooks/use-tracking.ts:109 | `Quantidade` `"-3"` stays -3. |
| Search.IdText | hooks/use-tracking.ts:197-198 | `String(n \|\| '').trim()` of an identifier is empty exactly when the identifier is 0. |
| Search.FirstIndex | hooks/use-tracking.ts:193 | `find` stops at the first element that satisfies the callback. No element before it does, and no element at all when it finds none. |
| Search.Matches | hooks/use-tracking.ts:194-206 | The `find` callback for a non-blank trimmed query: the order or invoice text equals the query or contains it. |
| Search.Find | hooks/use-tracking.ts:190-211 | No data or a blank query gives nothing. Otherwise the result is the first record whose identifier text matches the trimmed query, and nothing when none matches. |
| Search.FindIn | hooks/use-tracking.ts:193-206 | `find` returns the first record that satisfies the callback, or nothing. |
| Search.MatchesIsContainment | hooks/use-tracking.ts:203-206 | The equality tests add nothing: the callback is containment alone. |
| Search.FindIs | hooks/use-tracking.ts:193-211 | For a non-blank query, the first matching record is the answer. |
| Search.FindNone | hooks/use-tracking.ts:193-211 | When nothing matches, the answer is nothing. |
| Search.FindAppend | hooks/use-tracking.ts:193-211 | Records after a hit do not change the answer. After a miss, the answer is the one the following records give. |
| Search.FindTrimsQuery | hooks/use-tracking.ts:199 | White space around the query changes nothing. |
| Search.IdTextReadsBack | hooks/use-tracking.ts:197-198 | The identifier text of a non-zero number reads back as that number and needs no trimming. |
| Search.ContainingBeatsExact | hooks/use-tracking.ts:203-206 | With order 1009 before order 100, the query `100` finds 1009. |
| Search.FragmentFinds | hooks/use-tracking.ts:205 | A fragment from the middle of the number, `009`, finds order 1009. |
| Search.ZeroIdentifierNeverMatches | hooks/use-tracking.ts:197-198 | A record whose numbers are both 0 has empty texts and matches no query. |
| ResultView.TrackingResult | components/tracking-result.tsx:13-17 | The badge is the status engine's. The transit count is `calculateDays(ship, delivery)`. The countdown is absent with a delivery date, and otherwise counts from today's `yyyy-MM-dd` to the expected date. The timing card shows iff one count exists. The two boxes never show together. The quantity unit is `item` iff the quantity is 1. |
| ResultView.TransitBoxOf | components/tracking-result.tsx:76-86 | The delivery-time box shows iff there is a delivery date and a transit count. It shows that count, with `dia` iff it is 1. |
| ResultView.CountdownBoxOf | components/tracking-result.tsx:88-112 | The countdown box shows iff there is no delivery date and there is a count. A negative count gives red "Atrasado há", otherwise blue "Faltam". The number shown is the absolute value, with `dia` iff it is 1. |
| ResultView.DayUnit | components/tracking-result.tsx:82-112 | The unit is `dia` exactly for 1, else `dias`. |
| ResultView.TodayText | components/tracking-result.tsx:17 | Today's text is the `yyyy-MM-dd` spelling of the date of now, for a four-digit year. |
| ResultView.TodayTextReadsBack | components/tracking-result.tsx:17 | Today's text parses to today's midnight. |
| ResultView.TransitBoxMeansDelivered | components/tracking-result.tsx:76 | The green delivery-time box shows only for a record the badge calls delivered. |
| ResultView.OverdueBoxMeansDelayed | components/tracking-result.tsx:88-105 | The red "Atrasado há" box shows only for a record the badge calls delayed. |
| ResultView.CountdownBeforeExpectedDay | components/tracking-result.tsx:15-17 | Before the expected day, the blue box counts exactly the days left to it. |
| ResultView.DueTodayShowsBoth | components/tracking-result.tsx:13-17 | On the expected day after midnight, the badge says "Atrasado" while the box says "Faltam 0 dias". |
| ResultView.DeliveredExample | components/tracking-result.tsx:14 | Shipped 01/01/2025 and delivered 03/01/2025: 2 days in transit, no countdown, delivered. |
| Text.IsSpace | hooks/use-tracking.ts:11-15 | The characters `trim` strips are exactly the ECMAScript WhiteSpace and LineTerminator code points: tab, line feed, vertical tab, form feed, carriage return, space, no-break space, the Unicode space separators, the line and paragraph separators and the byte-order mark. |
| Text.Trim | hooks/use-tracking.ts:101-111 | `String.prototype.trim`, used at lines 11, 15, 101-111 and 197-199: the result is no longer than the text and has no white space at either end. |
| Text.IntToString | hooks/use-tracking.ts:197-198 | `String(n)` of an integer below 1e21 in magnitude: non-empty text without surrounding white space, all digits for a non-negative number, and a minus sign followed by digits for a negative one. |
| Text.Contains | hooks/use-tracking.ts:205-206 | `s.includes(t)`: `t` is a prefix of `s` or is contained in `s` without its first character. |
| Text.ContainsIffOccurs | hooks/use-tracking.ts:205-206 | `includes` holds exactly when the query is the slice of the text at some position. |
| Normalizer.IsIdentifier | hooks/use-tracking.ts:92-93 | `hasPedido` and `hasNF`: the cell is truthy and is a number or a string. |
| ResultView.Abs | components/tracking-result.tsx:112 | `Math.abs`: a non-negative number equal to the count or to its negation. |
| ResultView.ExpandedYmd | components/tracking-result.tsx:17 | The date part of `toISOString()` for a year outside 0 to 9999: a sign, at least six year digits, then month and day, at least 13 characters ending in a digit. |
| Text.TrimEmptyIffBlank | hooks/use-tracking.ts:11 | `trim()` gives empty text exactly for white-space-only text. |
| Text.TrimIdempotent | hooks/use-tracking.ts:199 | Trimming twice is trimming once. |
| Text.TrimIsMiddle | hooks/use-tracking.ts:11 | `trim` removes white space from the two ends only. |
| Text.NatToStringRoundTrip | hooks/use-tracking.ts:197 | The decimal text of a number reads back as that number. |
| Tracking.Describe | hooks/use-tracking.ts:43-76 | A status description carries the status it describes. |

## Left out

- `useSheetData` is left out: the fetch, its `Cache-Control` header, React Query's refetch, stale time and retry options, and its error messages (hooks/use-tracking.ts:121-188). It is network I/O, and React Query, not this code, owns caching and retries.
- XLSX decoding (`XLSX.read`, `sheet_to_json`) is left out as foreign library code. Its output is the `Feed` of raw `Item`s that `ValidateAndClean` takes.
- Logging (`console.*`) and the `try`/`catch` blocks that only log are left out. The one exception is the row-dropping `catch` of the normalizer, which is modelled.
- Search's own `try`/`catch` is left out, because String() of a normalized record's numbers never throws.
- Time zones are left out. There is one local zone with no daylight saving. `toISOString()` is UTC in the code, but the model reads today's date in the same local zone as everything else.
- Dates.ParseBr: date-fns' `parse` also accepts one-digit days and months and years of one to four digits. The model accepts only the strict two-two-four digit shape, and years 1 to 9999.
- Dates.ParseIso: only the exact `yyyy-MM-dd` shape is modelled. Times, offsets, week dates, ordinal dates and expanded years go to the caller-supplied `IsoReader`.
- ResultView.TodayText: years outside 0 to 9999 give the expanded `±YYYYYY-MM-DD` form. The model states only its shape, and what that text parses to is the `IsoReader`'s. JavaScript's date range limit of ±100,000,000 days is not modelled.
- Normalizer.StringToNumber: only optionally signed decimal integers are read. Fractions, exponents, hexadecimal, binary and octal prefixes and `Infinity` read as NaN here. Integers beyond 2^53 are read exactly, where JavaScript would round them to the nearest double.
- Normalizer.ToText: JavaScript's `String` writes an integer of magnitude 1e21 or more in exponent notation (`String(1e21)` is `"1e+21"`). The model writes every digit through `Text.IntToString`. So for such identifiers `Search.IdText`, and hence `Search.Find`, see the full digits where the program sees the exponent form.
- Normalizer.Row: a row holds only the thirteen known columns. Extra properties are never read by the code.
- Normalizer.Cell: the `Other` cell does not model how booleans, `null`, arrays and objects convert. It carries their truthiness and conversions as given.
- Tracking.TrackingStatus: the colour class strings are reduced to a `Tone`, one per status.
- The page (`app/page.tsx`), the theme toggle, JSX, CSS classes, icons and animation are left out as UI with no decision logic beyond trimming input.

=== FILE: calendar.dfy ===
/** Proleptic Gregorian calendar dates, the day numbers that stand for their
    local midnights, and date-fns' whole-day difference between two instants.

    An instant is an integer count of milliseconds since 1970-01-01 00:00 in the
    single local time zone of the model (no daylight-saving shifts), so every
    day lasts exactly `MsPerDay`. */
module Calendar {

  const MsPerDay: int := 86_400_000

  /** Days from 0000-01-01 to 1970-01-01. */
  const EpochDay: int := 719_528

  datatype Date = Date(year: int, month: int, day: int)

  predicate IsLeapYear(y: int) {
    y % 4 == 0 && (y % 100 != 0 || y % 400 == 0)
  }

  function DaysInMonth(y: int, m: int): (n: int)
    requires 1 <= m <= 12
    ensures 28 <= n <= 31
    ensures n == 29 <==> m == 2 && IsLeapYear(y)
  {
    if m == 2 then (if IsLeapYear(y) then 29 else 28)
    else if m == 4 || m == 6 || m == 9 || m == 11 then 30
    else 31
  }

  /** A real calendar date: a month of the year and a day that month has. */
  predicate ValidDate(d: Date) {
    1 <= d.month <= 12 && 1 <= d.day <= DaysInMonth(d.year, d.month)
  }

  function YearLength(y: int): int {
    if IsLeapYear(y) then 366 else 365
  }

  /** Days from 0000-01-01 to January 1st of year `y` (negative before year 0).
      The three quotients count the leap years in [0, y) under floor division. */
  function DaysBeforeYear(y: int): int {
    365 * y + (y + 3) / 4 - (y + 99) / 100 + (y + 399) / 400
  }

  /** Days from January 1st of year `y` to the first of month `m`;
      `m == 13` stands for January 1st of the next year. */
  function DaysBeforeMonth(y: int, m: int): int
    requires 1 <= m <= 13
  {
    var common :=
      if m == 1 then 0 else if m == 2 then 31 else if m == 3 then 59
      else if m == 4 then 90 else if m == 5 then 120 else if m == 6 then 151
      else if m == 7 then 181 else if m == 8 then 212 else if m == 9 then 243
      else if m == 10 then 273 else if m == 11 then 304 else if m == 12 then 334
      else 365;
    common + (if m > 2 && IsLeapYear(y) then 1 else 0)
  }

  /** The day number of a date: days since 1970-01-01. */
  function DayNumber(d: Date): int
    requires ValidDate(d)
  {
    DaysBeforeYear(d.year) + DaysBeforeMonth(d.year, d.month) + d.day - 1 - EpochDay
  }

  /** The instant of a date's local midnight. */
  function Midnight(d: Date): int
    requires ValidDate(d)
  {
    DayNumber(d) * MsPerDay
  }

  /** One more year adds one to a count of multiples of 4, 100 or 400 exactly
      when the year itself is one. */
  lemma QuotientStep4(y: int)
    ensures (y + 4) / 4 - (y + 3) / 4 == (if y % 4 == 0 then 1 else 0)
  {
    var q := (y + 3) / 4;
    var r := (y + 3) % 4;
    assert y + 3 == 4 * q + r;
    if r == 3 {
      assert y == 4 * q;
      assert (y + 4) / 4 == q + 1;
    } else {
      assert (y + 4) / 4 == q;
      assert y == 4 * (q - 1) + (r + 1);
    }
  }

  lemma QuotientStep100(y: int)
    ensures (y + 100) / 100 - (y + 99) / 100 == (if y % 100 == 0 then 1 else 0)
  {
    var q := (y + 99) / 100;
    var r := (y + 99) % 100;
    assert y + 99 == 100 * q + r;
    if r == 99 {
      assert y == 100 * q;
      assert (y + 100) / 100 == q + 1;
    } else {
      assert (y + 100) / 100 == q;
      assert y == 100 * (q - 1) + (r + 1);
    }
  }

  lemma QuotientStep400(y: int)
    ensures (y + 400) / 400 - (y + 399) / 400 == (if y % 400 == 0 then 1 else 0)
  {
    var q := (y + 399) / 400;
    var r := (y + 399) % 400;
    assert y + 399 == 400 * q + r;
    if r == 399 {
      assert y == 400 * q;
      assert (y + 400) / 400 == q + 1;
    } else {
      assert (y + 400) / 400 == q;
      assert y == 400 * (q - 1) + (r + 1);
    }
  }

  lemma LeapCountStep(y: int)
    ensures (y + 4) / 4 - (y + 3) / 4 == (if y % 4 == 0 then 1 else 0)
    ensures (y + 100) / 100 - (y + 99) / 100 == (if y % 100 == 0 then 1 else 0)
    ensures (y + 400) / 400 - (y + 399) / 400 == (if y % 400 == 0 then 1 else 0)
  {
    QuotientStep4(y);
    QuotientStep100(y);
    QuotientStep400(y);
  }

  lemma DivisibilityChain(y: int)
    ensures y % 400 == 0 ==> y % 100 == 0
    ensures y % 100 == 0 ==> y % 4 == 0
  {
    var k := y / 400;
    var m := y / 100;
    if y % 400 == 0 {
      assert y == 400 * k;
      assert y / 100 == 4 * k;
    }
    if y % 100 == 0 {
      assert y == 100 * m;
      assert y / 4 == 25 * m;
    }
  }

  lemma YearLengthIsDaysBetweenNewYears(y: int)
    ensures DaysBeforeYear(y + 1) - DaysBeforeYear(y) == YearLength(y)
    ensures DaysBeforeMonth(y, 13) == YearLength(y)
  {
    LeapCountStep(y);
    DivisibilityChain(y);
    var a := (y + 4) / 4 - (y + 3) / 4;
    var b := (y + 100) / 100 - (y + 99) / 100;
    var c := (y + 400) / 400 - (y + 399) / 400;
    assert DaysBeforeYear(y + 1) - DaysBeforeYear(y) == 365 + a - b + c;
  }

  lemma MonthStep(y: int, m: int)
    requires 1 <= m <= 12
    ensures DaysBeforeMonth(y, m + 1) == DaysBeforeMonth(y, m) + DaysInMonth(y, m)
  {
  }

  lemma {:induction false} DaysBeforeYearMonotone(a: int, b: int)
    requires a <= b
    ensures DaysBeforeYear(a) <= DaysBeforeYear(b)
    decreases b - a
  {
    if a < b {
      YearLengthIsDaysBetweenNewYears(a);
      DaysBeforeYearMonotone(a + 1, b);
    }
  }

  lemma {:induction false} DaysBeforeMonthMonotone(y: int, a: int, b: int)
    requires 1 <= a <= b <= 13
    ensures DaysBeforeMonth(y, a) <= DaysBeforeMonth(y, b)
    decreases b - a
  {
    if a < b {
      MonthStep(y, a);
      DaysBeforeMonthMonotone(y, a + 1, b);
    }
  }

  /** The calendar day after `d`. */
  function NextDay(d: Date): (n: Date)
    requires ValidDate(d)
    ensures ValidDate(n)
  {
    if d.day < DaysInMonth(d.year, d.month) then Date(d.year, d.month, d.day + 1)
    else if d.month < 12 then Date(d.year, d.month + 1, 1)
    else Date(d.year + 1, 1, 1)
  }

  /** Day numbers count calendar days: the next date has the next number. */
  lemma NextDayIsNextNumber(d: Date)
    requires ValidDate(d)
    ensures DayNumber(NextDay(d)) == DayNumber(d) + 1
  {
    if d.day == DaysInMonth(d.year, d.month) {
      MonthStep(d.year, d.month);
      if d.month == 12 {
        YearLengthIsDaysBetweenNewYears(d.year);
      }
    }
  }

  function YearUp(z: int, y: int): (r: int)
    requires DaysBeforeYear(y) <= z
    ensures y <= r && DaysBeforeYear(r) <= z < DaysBeforeYear(r + 1)
    decreases z - DaysBeforeYear(y)
  {
    YearLengthIsDaysBetweenNewYears(y);
    if z < DaysBeforeYear(y + 1) then y else YearUp(z, y + 1)
  }

  function YearDown(z: int, y: int): (r: int)
    requires z < DaysBeforeYear(y + 1)
    ensures r <= y && DaysBeforeYear(r) <= z < DaysBeforeYear(r + 1)
    decreases DaysBeforeYear(y + 1) - z
  {
    YearLengthIsDaysBetweenNewYears(y);
    if DaysBeforeYear(y) <= z then y else YearDown(z, y - 1)
  }

  /** The year whose days (counted from 0000-01-01) include day `z`. */
  function YearOfDay(z: int): (y: int)
    ensures DaysBeforeYear(y) <= z < DaysBeforeYear(y + 1)
  {
    if z >= 0 then YearUp(z, 0) else YearDown(z, -1)
  }

  function MonthDown(y: int, k: int, m: int): (r: int)
    requires 1 <= m <= 12 && 0 <= k < DaysBeforeMonth(y, m + 1)
    ensures 1 <= r <= m && DaysBeforeMonth(y, r) <= k < DaysBeforeMonth(y, r + 1)
    decreases m
  {
    if m == 1 || DaysBeforeMonth(y, m) <= k then m else MonthDown(y, k, m - 1)
  }

  /** The date whose day number is `n`: the calendar date of local midnight `n * MsPerDay`. */
  function DateOfDay(n: int): (d: Date)
    ensures ValidDate(d) && DayNumber(d) == n
  {
    var z := n + EpochDay;
    var y := YearOfDay(z);
    YearLengthIsDaysBetweenNewYears(y);
    var k := z - DaysBeforeYear(y);
    var m := MonthDown(y, k, 12);
    MonthStep(y, m);
    Date(y, m, k - DaysBeforeMonth(y, m) + 1)
  }

  lemma YearUnique(z: int, y1: int, y2: int)
    requires DaysBeforeYear(y1) <= z < DaysBeforeYear(y1 + 1)
    requires DaysBeforeYear(y2) <= z < DaysBeforeYear(y2 + 1)
    ensures y1 == y2
  {
    if y1 < y2 {
      DaysBeforeYearMonotone(y1 + 1, y2);
    } else if y2 < y1 {
      DaysBeforeYearMonotone(y2 + 1, y1);
    }
  }

  lemma MonthUnique(y: int, k: int, m1: int, m2: int)
    requires 1 <= m1 <= 12 && 1 <= m2 <= 12
    requires DaysBeforeMonth(y, m1) <= k < DaysBeforeMonth(y, m1 + 1)
    requires DaysBeforeMonth(y, m2) <= k < DaysBeforeMonth(y, m2 + 1)
    ensures m1 == m2
  {
    if m1 < m2 {
      DaysBeforeMonthMonotone(y, m1 + 1, m2);
    } else if m2 < m1 {
      DaysBeforeMonthMonotone(y, m2 + 1, m1);
    }
  }

  /** Distinct real dates have distinct day numbers, and `DateOfDay` recovers the date. */
  lemma DateOfDayNumber(d: Date)
    requires ValidDate(d)
    ensures DateOfDay(DayNumber(d)) == d
  {
    var z := DayNumber(d) + EpochDay;
    var e := DateOfDay(DayNumber(d));
    MonthStep(d.year, d.month);
    DaysBeforeMonthMonotone(d.year, d.month + 1, 13);
    YearLengthIsDaysBetweenNewYears(d.year);
    YearUnique(z, d.year, e.year);
    MonthStep(e.year, e.month);
    MonthUnique(d.year, z - DaysBeforeYear(d.year), d.month, e.month);
  }

  /** The local calendar date that contains instant `t`. */
  function DateOfInstant(t: int): (d: Date)
    ensures ValidDate(d)
    ensures Midnight(d) <= t < Midnight(d) + MsPerDay
  {
    DateOfDay(t / MsPerDay)
  }

  /** date-fns `differenceInDays(later, earlier)`: the number of whole days from
      `earlier` to `later`, truncated toward zero. */
  function DiffDays(later: int, earlier: int): (r: int)
    ensures later >= earlier ==> 0 <= r && r * MsPerDay <= later - earlier < r * MsPerDay + MsPerDay
    ensures later < earlier ==> r <= 0 && r * MsPerDay - MsPerDay < later - earlier <= r * MsPerDay
  {
    var delta := later - earlier;
    if delta >= 0 then delta / MsPerDay else -((-delta) / MsPerDay)
  }

  /** Between two midnights the difference is exact: the difference of the day numbers. */
  lemma DiffDaysOfMidnights(later: Date, earlier: Date)
    requires ValidDate(later) && ValidDate(earlier)
    ensures DiffDays(Midnight(later), Midnight(earlier)) == DayNumber(later) - DayNumber(earlier)
  {
    var k := DayNumber(later) - DayNumber(earlier);
    assert Midnight(later) - Midnight(earlier) == k * MsPerDay;
  }

  lemma DiffDaysAntisymmetric(a: int, b: int)
    ensures DiffDays(a, b) == -DiffDays(b, a)
  {
  }
}

=== FILE: dates.dfy ===
/** The date interpreter of hooks/use-tracking.ts: `parseDate` reads Brazilian
    `dd/MM/yyyy` text first and falls back to ISO 8601; `calculateDays` is the
    signed whole-day difference between two such texts, "now" standing in for
    an absent end. */
module Dates {
  import opened Wrappers
  import opened Text
  import opened Calendar

  /** What date-fns' `parseISO` makes of a text that is not exactly `yyyy-MM-dd`:
      the instant it denotes, or `None` for an invalid date. The rest of the
      ISO 8601 grammar (times, offsets, week and ordinal dates, expanded years)
      is not part of this model, so callers supply it. */
  type IsoReader = string -> Option<int>

  /** Two decimal digits. */
  function Two(a: char, b: char): int
    requires IsDigit(a) && IsDigit(b)
  {
    10 * DigitValue(a) + DigitValue(b)
  }

  /** Four decimal digits. */
  function Four(a: char, b: char, c: char, d: char): int
    requires IsDigit(a) && IsDigit(b) && IsDigit(c) && IsDigit(d)
  {
    1000 * DigitValue(a) + 100 * DigitValue(b) + 10 * DigitValue(c) + DigitValue(d)
  }

  lemma DigitCharOfValue(c: char)
    requires IsDigit(c)
    ensures DigitChar(DigitValue(c)) == c
  {
  }

  lemma TwoSplit(a: char, b: char)
    requires IsDigit(a) && IsDigit(b)
    ensures Two(a, b) / 10 == DigitValue(a) && Two(a, b) % 10 == DigitValue(b)
  {
  }

  lemma TwoJoin(n: int)
    requires 0 <= n < 100
    ensures Two(DigitChar(n / 10), DigitChar(n % 10)) == n
  {
  }

  lemma DivMod10(q: int, r: int)
    requires 0 <= r < 10
    ensures (10 * q + r) / 10 == q && (10 * q + r) % 10 == r
  {
  }

  lemma FourSplit(a: char, b: char, c: char, d: char)
    requires IsDigit(a) && IsDigit(b) && IsDigit(c) && IsDigit(d)
    ensures var n := Four(a, b, c, d);
      n / 10 / 10 / 10 == DigitValue(a) && n / 10 / 10 % 10 == DigitValue(b)
      && n / 10 % 10 == DigitValue(c) && n % 10 == DigitValue(d)
  {
    var ab := 10 * DigitValue(a) + DigitValue(b);
    var abc := 10 * ab + DigitValue(c);
    DivMod10(abc, DigitValue(d));
    DivMod10(ab, DigitValue(c));
    DivMod10(DigitValue(a), DigitValue(b));
  }

  lemma FourJoin(n: int)
    requires 0 <= n <= 9999
    ensures Four(DigitChar(n / 10 / 10 / 10), DigitChar(n / 10 / 10 % 10), DigitChar(n / 10 % 10), DigitChar(n % 10)) == n
  {
    var n1 := n / 10;
    var n2 := n1 / 10;
    assert n == 10 * n1 + n % 10;
    assert n1 == 10 * n2 + n1 % 10;
    assert n2 == 10 * (n2 / 10) + n2 % 10;
  }

  /** The years a four-digit `yyyy` field of date-fns' `parse` accepts (it rejects year 0). */
  predicate BrYear(y: int) {
    1 <= y <= 9999
  }

  /** Text of the shape `dd/MM/yyyy`. */
  predicate BrShape(t: string) {
    && |t| == 10
    && IsDigit(t[0]) && IsDigit(t[1]) && t[2] == '/'
    && IsDigit(t[3]) && IsDigit(t[4]) && t[5] == '/'
    && IsDigit(t[6]) && IsDigit(t[7]) && IsDigit(t[8]) && IsDigit(t[9])
  }

  /** Text of the shape `yyyy-MM-dd`. */
  predicate YmdShape(t: string) {
    && |t| == 10
    && IsDigit(t[0]) && IsDigit(t[1]) && IsDigit(t[2]) && IsDigit(t[3]) && t[4] == '-'
    && IsDigit(t[5]) && IsDigit(t[6]) && t[7] == '-'
    && IsDigit(t[8]) && IsDigit(t[9])
  }

  /** A date written `dd/MM/yyyy`, zero-padded. */
  function FormatBr(d: Date): (t: string)
    requires ValidDate(d) && BrYear(d.year)
    ensures BrShape(t)
  {
    var y := d.year;
    [ DigitChar(d.day / 10), DigitChar(d.day % 10), '/',
      DigitChar(d.month / 10), DigitChar(d.month % 10), '/',
      DigitChar(y / 10 / 10 / 10), DigitChar(y / 10 / 10 % 10), DigitChar(y / 10 % 10), DigitChar(y % 10) ]
  }

  /** A date written `yyyy-MM-dd`, zero-padded. */
  function FormatYmd(d: Date): (t: string)
    requires ValidDate(d) && 0 <= d.year <= 9999
    ensures YmdShape(t)
  {
    var y := d.year;
    [ DigitChar(y / 10 / 10 / 10), DigitChar(y / 10 / 10 % 10), DigitChar(y / 10 % 10), DigitChar(y % 10), '-',
      DigitChar(d.month / 10), DigitChar(d.month % 10), '-',
      DigitChar(d.day / 10), DigitChar(d.day % 10) ]
  }

  /** date-fns `parse(t, 'dd/MM/yyyy', ...)` followed by `isValid`: the date is
      kept only when it is a real calendar date. The reading is exactly the
      inverse of `FormatBr`: a text is accepted only if it is the canonical
      spelling of the date it yields. */
  function ParseBr(t: string): (r: Option<Date>)
    ensures r.Some? ==> ValidDate(r.value) && BrYear(r.value.year) && FormatBr(r.value) == t
  {
    if !BrShape(t) then None
    else
      var d := Date(Four(t[6], t[7], t[8], t[9]), Two(t[3], t[4]), Two(t[0], t[1]));
      if BrYear(d.year) && ValidDate(d) then
        assert FormatBr(d) == t by {
          TwoSplit(t[0], t[1]);
          TwoSplit(t[3], t[4]);
          FourSplit(t[6], t[7], t[8], t[9]);
          DigitCharOfValue(t[0]); DigitCharOfValue(t[1]); DigitCharOfValue(t[3]); DigitCharOfValue(t[4]);
          DigitCharOfValue(t[6]); DigitCharOfValue(t[7]); DigitCharOfValue(t[8]); DigitCharOfValue(t[9]);
        }
        Some(d)
      else None
  }

  /** The `yyyy-MM-dd` shape of date-fns `parseISO`, read as that date's local
      midnight when it names a real calendar date. */
  function ParseYmd(t: string): (r: Option<Date>)
    ensures r.Some? ==> ValidDate(r.value) && 0 <= r.value.year <= 9999 && FormatYmd(r.value) == t
  {
    if !YmdShape(t) then None
    else
      var d := Date(Four(t[0], t[1], t[2], t[3]), Two(t[5], t[6]), Two(t[8], t[9]));
      if ValidDate(d) then
        assert FormatYmd(d) == t by {
          TwoSplit(t[5], t[6]);
          TwoSplit(t[8], t[9]);
          FourSplit(t[0], t[1], t[2], t[3]);
          DigitCharOfValue(t[0]); DigitCharOfValue(t[1]); DigitCharOfValue(t[2]); DigitCharOfValue(t[3]);
          DigitCharOfValue(t[5]); DigitCharOfValue(t[6]); DigitCharOfValue(t[8]); DigitCharOfValue(t[9]);
        }
        Some(d)
      else None
  }

  /** date-fns `parseISO(t)` followed by `isValid`. */
  function ParseIso(t: string, iso: IsoReader): Option<int> {
    if YmdShape(t) then
      match ParseYmd(t)
      case Some(d) => Some(Midnight(d))
      case None => None
    else iso(t)
  }

  /** `parseDate` (hooks/use-tracking.ts): null for empty, `"N/A"` and
      white-space-only text; otherwise the trimmed text read as `dd/MM/yyyy`,
      and failing that the untrimmed text read as ISO 8601. */
  function ParseDate(text: string, iso: IsoReader): (r: Option<int>)
    ensures IsBlank(text) || text == "N/A" ==> r == None
    ensures !IsBlank(text) && text != "N/A" && ParseBr(Trim(text)).None? ==> r == ParseIso(text, iso)
  {
    TrimEmptyIffBlank(text);
    if text == "" || text == "N/A" || Trim(text) == "" then None
    else
      match ParseBr(Trim(text))
      case Some(d) => Some(Midnight(d))
      case None => ParseIso(text, iso)
  }

  lemma ParseBrFormatBr(d: Date)
    requires ValidDate(d) && BrYear(d.year)
    ensures ParseBr(FormatBr(d)) == Some(d)
  {
    TwoJoin(d.day);
    TwoJoin(d.month);
    FourJoin(d.year);
  }

  lemma ParseYmdFormatYmd(d: Date)
    requires ValidDate(d) && 0 <= d.year <= 9999
    ensures ParseYmd(FormatYmd(d)) == Some(d)
  {
    TwoJoin(d.day);
    TwoJoin(d.month);
    FourJoin(d.year);
  }

  /** On text with nothing to trim, `parseDate` is the `dd/MM/yyyy` reading, else the ISO one. */
  lemma ParseDateOfTrimmed(t: string, iso: IsoReader)
    requires IsTrimmed(t) && t != [] && t != "N/A"
    ensures ParseDate(t, iso) == if ParseBr(t).Some? then Some(Midnight(ParseBr(t).value)) else ParseIso(t, iso)
  {
    TrimOfTrimmed(t);
  }

  lemma FormatBrIsPlainText(d: Date)
    requires ValidDate(d) && BrYear(d.year)
    ensures IsTrimmed(FormatBr(d)) && FormatBr(d) != [] && FormatBr(d) != "N/A"
  {
    var t := FormatBr(d);
    assert IsDigit(t[0]) && IsDigit(t[9]) && |t| == 10;
  }

  lemma FormatYmdIsPlainText(d: Date)
    requires ValidDate(d) && 0 <= d.year <= 9999
    ensures IsTrimmed(FormatYmd(d)) && FormatYmd(d) != [] && FormatYmd(d) != "N/A"
    ensures ParseBr(FormatYmd(d)) == None
  {
    var t := FormatYmd(d);
    assert IsDigit(t[0]) && IsDigit(t[9]) && |t| == 10;
    assert t[2] != '/';
  }

  /** Any text that trims to a real `dd/MM/yyyy` date parses to that date's
      midnight, whatever the ISO reading of the text would have been. */
  lemma BrReadingWins(text: string, d: Date, iso: IsoReader)
    requires ValidDate(d) && BrYear(d.year)
    requires Trim(text) == FormatBr(d)
    ensures ParseDate(text, iso) == Some(Midnight(d))
  {
    ParseBrFormatBr(d);
    FormatBrIsPlainText(d);
    TrimEmptyIffBlank(text);
  }

  /** `yyyy-MM-dd` text of a real date parses to that date's midnight through the ISO fallback. */
  lemma YmdReading(d: Date, iso: IsoReader)
    requires ValidDate(d) && 0 <= d.year <= 9999
    ensures ParseDate(FormatYmd(d), iso) == Some(Midnight(d))
  {
    ParseYmdFormatYmd(d);
    FormatYmdIsPlainText(d);
    ParseDateOfTrimmed(FormatYmd(d), iso);
  }

  /** Text that is blank or the `"N/A"` sentinel never parses. */
  lemma NoDateText(iso: IsoReader)
    ensures ParseDate("", iso) == None
    ensures ParseDate("N/A", iso) == None
    ensures ParseDate(" \t ", iso) == None
  {
  }

  /** `31/02/2025` has the `dd/MM/yyyy` shape but names no real date: the first
      format rejects it and only the ISO reading is left, which plain
      `yyyy-MM-dd` does not provide. */
  lemma ImpossibleDateRejected(iso: IsoReader)
    ensures ParseBr("31/02/2025") == None
    ensures ParseDate("31/02/2025", iso) == iso("31/02/2025")
  {
    var t := "31/02/2025";
    FebruaryThirtyFirst();
    assert IsTrimmed(t) && t != [] && t != "N/A" && !YmdShape(t) by {
      assert t[0] == '3' && t[9] == '5' && t[4] == '2';
    }
    ParseDateOfTrimmed(t, iso);
  }

  /** February 2025 has 28 days, so the `dd/MM/yyyy` reading of `31/02/2025` fails. */
  lemma FebruaryThirtyFirst()
    ensures ParseBr("31/02/2025") == None
  {
    assert BrShape("31/02/2025");
    assert !IsLeapYear(2025);
  }

  /** `calculateDays(start, end)`: the start must parse; a truthy end must parse
      too, while a falsy one means `now`; the answer is `end - start` in whole
      days, truncated toward zero. */
  function CalculateDays(start: string, end: Option<string>, now: int, iso: IsoReader): (r: Option<int>)
    ensures ParseDate(start, iso).None? ==> r.None?
    ensures TruthyText(end) && ParseDate(end.value, iso).None? ==> r.None?
    ensures !TruthyText(end) && ParseDate(start, iso).Some? ==> r == Some(DiffDays(now, ParseDate(start, iso).value))
    ensures TruthyText(end) && ParseDate(start, iso).Some? && ParseDate(end.value, iso).Some? ==>
              r == Some(DiffDays(ParseDate(end.value, iso).value, ParseDate(start, iso).value))
  {
    var s :- ParseDate(start, iso);
    var e :- if TruthyText(end) then ParseDate(end.value, iso) else Some(now);
    Some(DiffDays(e, s))
  }

  /** Two texts that parse give the difference of their instants. */
  lemma DaysBetweenParsed(start: string, end: string, s: int, e: int, now: int, iso: IsoReader)
    requires ParseDate(start, iso) == Some(s) && ParseDate(end, iso) == Some(e)
    ensures CalculateDays(start, Some(end), now, iso) == Some(DiffDays(e, s))
  {
    NoDateText(iso);
  }

  /** A real date written `dd/MM/yyyy` parses to its midnight. */
  lemma BrTextReading(d: Date, iso: IsoReader)
    requires ValidDate(d) && BrYear(d.year)
    ensures ParseDate(FormatBr(d), iso) == Some(Midnight(d))
  {
    FormatBrIsPlainText(d);
    TrimOfTrimmed(FormatBr(d));
    BrReadingWins(FormatBr(d), d, iso);
  }

  /** Between two real `dd/MM/yyyy` dates the answer is the whole days from
      the first midnight to the second, which `DiffDaysOfMidnights` shows is
      the difference of their day numbers. */
  lemma DaysBetweenBrDates(a: Date, b: Date, now: int, iso: IsoReader)
    requires ValidDate(a) && BrYear(a.year) && ValidDate(b) && BrYear(b.year)
    ensures CalculateDays(FormatBr(a), Some(FormatBr(b)), now, iso) == Some(DiffDays(Midnight(b), Midnight(a)))
  {
    BrTextReading(a, iso);
    BrTextReading(b, iso);
    FormatBrIsPlainText(b);
    DaysBetweenParsed(FormatBr(a), FormatBr(b), Midnight(a), Midnight(b), now, iso);
  }

  /** Four days from 1 to 5 January 2025, minus four the other way, none from "N/A". */
  lemma DaysBetweenExamples(now: int, iso: IsoReader)
    ensures CalculateDays("01/01/2025", Some("05/01/2025"), now, iso) == Some(4)
    ensures CalculateDays("05/01/2025", Some("01/01/2025"), now, iso) == Some(-4)
    ensures CalculateDays("N/A", Some("05/01/2025"), now, iso) == None
  {
    var a := Date(2025, 1, 1);
    var b := Date(2025, 1, 5);
    assert FormatBr(a) == "01/01/2025";
    assert FormatBr(b) == "05/01/2025";
    DaysBetweenBrDates(a, b, now, iso);
    DaysBetweenBrDates(b, a, now, iso);
    DiffDaysOfMidnights(b, a);
    DiffDaysOfMidnights(a, b);
  }
}

=== FILE: normalizer.dfy ===
/** `validateAndCleanData` (hooks/use-tracking.ts): keeps the rows that are
    objects with a truthy numeric-or-text `Pedido` or `Nota Fiscal`, and turns
    each into a `TrackingData` by coercing every column with a default. A row
    whose coercion throws is dropped; the rest keep their order. */
module Normalizer {
  import opened Wrappers
  import opened Text
  import opened Tracking

  /** A JavaScript number as this model knows it: an integer, or NaN. */
  datatype JsNumber = NaN | Int(value: int)

  /** One loosely typed cell of a decoded row. `Other` is any further
      JavaScript value (boolean, null, object, ...), described by its
      truthiness and by what `String()` and `Number()` make of it, `None`
      meaning the conversion throws. */
  datatype Cell =
    | Absent
    | Str(s: string)
    | Num(n: JsNumber)
    | Other(truthy: bool, asText: Option<string>, asNumber: Option<JsNumber>)

  /** A decoded row as a plain object: one cell per known column label,
      `Absent` where the property is missing. */
  datatype Row = Row(
    order: Cell,          // Pedido
    shipDate: Cell,       // Data de Envio
    expectedDate: Cell,   // Previsao de Entrega
    deliveryDate: Cell,   // Data de Entrega
    invoice: Cell,        // Nota Fiscal
    city: Cell,           // Cidade
    state: Cell,          // Estado
    carrier: Cell,        // Transportadora
    productValue: Cell,   // Valor do Produto
    quantity: Cell,       // Quantidade
    productType: Cell,    // Tipo do Produto
    shippingValue: Cell,  // Valor do Transporte
    model: Cell           // Modelo
  )

  /** An element of the decoded array: a plain object, or anything else (`null`, a number, ...). */
  datatype Item = NonObject | Object(row: Row)

  /** The decoder's output: an array of items, or some non-array value. */
  datatype Feed = NotArray | Array(items: seq<Item>)

  const NotAvailable: string := "N/A"
  const ZeroMoney: string := "R$ 0,00"

  lemma DefaultsTrimmed()
    ensures IsTrimmed(NotAvailable) && IsTrimmed(ZeroMoney)
  {
    assert NotAvailable[0] == 'N' && NotAvailable[2] == 'A';
    assert ZeroMoney[0] == 'R' && ZeroMoney[6] == '0';
  }

  /** A row with every property missing. */
  const EmptyRow: Row := Row(Absent, Absent, Absent, Absent, Absent, Absent, Absent,
                             Absent, Absent, Absent, Absent, Absent, Absent)

  predicate Truthy(c: Cell) {
    match c
    case Absent => false
    case Str(s) => s != ""
    case Num(n) => n.Int? && n.value != 0
    case Other(t, _, _) => t
  }

  /** `Number(s)` on text: blank text is 0, an optionally signed run of decimal
      digits (around white space) is its value, anything else NaN. */
  function StringToNumber(s: string): (n: JsNumber)
    ensures IsBlank(s) ==> n == Int(0)
  {
    TrimEmptyIffBlank(s);
    ReadInteger(Trim(s))
  }

  /** The numeric literal of trimmed text, as far as integers go. */
  function ReadInteger(t: string): (n: JsNumber)
    ensures t == "" ==> n == Int(0)
  {
    if t == "" then Int(0)
    else if AllDigits(t) then Int(NatValue(t))
    else if |t| >= 2 && (t[0] == '+' || t[0] == '-') && AllDigits(t[1..]) then
      Int(if t[0] == '-' then -(NatValue(t[1..]) as int) else NatValue(t[1..]))
    else NaN
  }

  /** `Number(c)`; `None` when it throws. */
  function ToNumber(c: Cell): Option<JsNumber> {
    match c
    case Absent => Some(NaN)
    case Str(s) => Some(StringToNumber(s))
    case Num(n) => Some(n)
    case Other(_, _, n) => n
  }

  /** `String(c)`; `None` when it throws. */
  function ToText(c: Cell): Option<string> {
    match c
    case Absent => Some("undefined")
    case Str(s) => Some(s)
    case Num(NaN) => Some("NaN")
    case Num(Int(i)) => Some(IntToString(i))
    case Other(_, t, _) => t
  }

  /** A truthy number or text: what makes `Pedido` or `Nota Fiscal` count as an identifier. */
  predicate IsIdentifier(c: Cell) {
    Truthy(c) && (c.Str? || c.Num?)
  }

  /** The filter of `validateAndCleanData`. */
  predicate Accepts(item: Item) {
    item.Object? && (IsIdentifier(item.row.order) || IsIdentifier(item.row.invoice))
  }

  predicate NumberThrows(c: Cell) {
    Truthy(c) && ToNumber(c).None?
  }

  predicate TextThrows(c: Cell) {
    Truthy(c) && ToText(c).None?
  }

  /** `c ? Number(c) || fallback : fallback`, for a cell whose `Number(c)` does not throw. */
  function NumberOr(c: Cell, fallback: int): (r: int)
    ensures !Truthy(c) ==> r == fallback
    ensures r != fallback ==> r != 0 && ToNumber(c) == Some(Int(r))
    ensures Truthy(c) && ToNumber(c).Some? && ToNumber(c).value.Int? && ToNumber(c).value.value != 0
            ==> r == ToNumber(c).value.value
  {
    if !Truthy(c) then fallback
    else
      match ToNumber(c)
      case Some(Int(v)) => if v == 0 then fallback else v
      case _ => fallback
  }

  /** `c ? String(c).trim() : fallback`, for a cell whose `String(c)` does not throw. */
  function TextOr(c: Cell, fallback: string): (r: string)
    ensures !Truthy(c) ==> r == fallback
    ensures Truthy(c) && ToText(c).Some? ==> r == Trim(ToText(c).value)
    ensures IsTrimmed(fallback) ==> IsTrimmed(r)
  {
    if Truthy(c) && ToText(c).Some? then Trim(ToText(c).value) else fallback
  }

  /** `c ? String(c).trim() : undefined`, the treatment of `'Data de Entrega'`. */
  function OptionalText(c: Cell): (r: Option<string>)
    ensures r.None? <==> !Truthy(c) || ToText(c).None?
    ensures r.Some? ==> r.value == Trim(ToText(c).value) && IsTrimmed(r.value)
  {
    if Truthy(c) && ToText(c).Some? then Some(Trim(ToText(c).value)) else None
  }

  /** Some column's coercion throws, so the `try` of the row fails. */
  predicate RowThrows(row: Row) {
    || NumberThrows(row.order) || NumberThrows(row.invoice) || NumberThrows(row.quantity)
    || TextThrows(row.shipDate) || TextThrows(row.expectedDate) || TextThrows(row.deliveryDate)
    || TextThrows(row.city) || TextThrows(row.state) || TextThrows(row.carrier)
    || TextThrows(row.productValue) || TextThrows(row.productType) || TextThrows(row.model)
  }

  /** Every text column of a record is trimmed. */
  predicate TextTrimmed(data: TrackingData) {
    && IsTrimmed(data.shipDate) && IsTrimmed(data.expectedDate)
    && (data.deliveryDate.Some? ==> IsTrimmed(data.deliveryDate.value))
    && IsTrimmed(data.city) && IsTrimmed(data.state) && IsTrimmed(data.carrier)
    && IsTrimmed(data.productValue) && IsTrimmed(data.productType) && IsTrimmed(data.model)
  }

  /** The object literal of the `map` step, for a row none of whose coercions throws. */
  function Coerce(row: Row): (r: TrackingData)
    ensures TextTrimmed(r)
    ensures r.quantity != 0 && r.shippingValue == None
  {
    DefaultsTrimmed();
    TrackingData(
      NumberOr(row.order, 0),
      TextOr(row.shipDate, NotAvailable),
      TextOr(row.expectedDate, NotAvailable),
      OptionalText(row.deliveryDate),
      NumberOr(row.invoice, 0),
      TextOr(row.city, NotAvailable),
      TextOr(row.state, NotAvailable),
      TextOr(row.carrier, NotAvailable),
      TextOr(row.productValue, ZeroMoney),
      NumberOr(row.quantity, 1),
      TextOr(row.productType, NotAvailable),
      None,
      TextOr(row.model, NotAvailable))
  }

  /** The `try`/`catch` around the object literal: one record, or `None` (the
      `catch` branch's `null`) when a coercion throws. */
  function CleanRow(row: Row): (r: Option<TrackingData>)
    ensures r.None? <==> RowThrows(row)
    ensures r.Some? ==> TextTrimmed(r.value)
    ensures r.Some? ==> r.value.quantity != 0 && r.value.shippingValue == None
    ensures r.Some? ==> (r.value.deliveryDate.None? <==> !Truthy(row.deliveryDate))
    ensures r.Some? && !Truthy(row.order) ==> r.value.orderId == 0
    ensures r.Some? && !Truthy(row.invoice) ==> r.value.invoiceId == 0
    ensures r.Some? && !Truthy(row.quantity) ==> r.value.quantity == 1
    ensures r.Some? && !Truthy(row.productValue) ==> r.value.productValue == ZeroMoney
    ensures r.Some? && !Truthy(row.shipDate) ==> r.value.shipDate == NotAvailable
    ensures r.Some? && !Truthy(row.expectedDate) ==> r.value.expectedDate == NotAvailable
    ensures r.Some? && !Truthy(row.city) ==> r.value.city == NotAvailable
    ensures r.Some? && !Truthy(row.state) ==> r.value.state == NotAvailable
    ensures r.Some? && !Truthy(row.carrier) ==> r.value.carrier == NotAvailable
    ensures r.Some? && !Truthy(row.productType) ==> r.value.productType == NotAvailable
    ensures r.Some? && !Truthy(row.model) ==> r.value.model == NotAvailable
  {
    if RowThrows(row) then None else Some(Coerce(row))
  }

  /** One element through the `filter` and the `map`: its record, or `None`
      when the filter drops it or its coercion throws. */
  function CleanItem(item: Item): (r: Option<TrackingData>)
    ensures r.Some? ==> Accepts(item) && r == CleanRow(item.row)
    ensures Accepts(item) ==> r == CleanRow(item.row)
  {
    if Accepts(item) then CleanRow(item.row) else None
  }

  /** A row survives both the filter and the coercion. */
  predicate Survives(item: Item) {
    CleanItem(item).Some?
  }

  /** `filter`, `map`, `filter(Boolean)` with one function `f`: the present
      results of `f` over `s`, in order. */
  function FilterMap<A, B>(s: seq<A>, f: A -> Option<B>): (r: seq<B>)
    ensures |r| <= |s|
    decreases |s|
  {
    if s == [] then []
    else
      var rest := FilterMap(s[1..], f);
      match f(s[0])
      case Some(b) => [b] + rest
      case None => rest
  }

  /** The `filter`, `map`, `filter(Boolean)` chain over an array. */
  function Clean(items: seq<Item>): (r: seq<TrackingData>)
    ensures |r| <= |items|
  {
    FilterMap(items, CleanItem)
  }

  /** `validateAndCleanData(rawData)`. */
  function ValidateAndClean(feed: Feed): (r: seq<TrackingData>)
    ensures feed.NotArray? ==> r == []
    ensures feed.Array? ==> r == Clean(feed.items)
  {
    match feed
    case NotArray => []
    case Array(items) => Clean(items)
  }

  lemma {:induction false} FilterMapAppend<A, B>(a: seq<A>, b: seq<A>, f: A -> Option<B>)
    ensures FilterMap(a + b, f) == FilterMap(a, f) + FilterMap(b, f)
    decreases |a|
  {
    if a != [] {
      assert (a + b)[0] == a[0];
      assert (a + b)[1..] == a[1..] + b;
      FilterMapAppend(a[1..], b, f);
      var rest := FilterMap(a[1..], f);
      match f(a[0])
      case Some(x) =>
        assert FilterMap(a + b, f) == [x] + (rest + FilterMap(b, f));
      case None =>
    } else {
      assert a + b == b;
    }
  }

  lemma {:induction false} FilterMapFrom<A, B>(s: seq<A>, f: A -> Option<B>, k: int)
    requires 0 <= k < |FilterMap(s, f)|
    ensures exists j :: 0 <= j < |s| && f(s[j]) == Some(FilterMap(s, f)[k])
    decreases |s|
  {
    if f(s[0]).Some? && k == 0 {
      assert f(s[0]) == Some(FilterMap(s, f)[k]);
    } else {
      var k' := if f(s[0]).Some? then k - 1 else k;
      assert FilterMap(s, f)[k] == FilterMap(s[1..], f)[k'];
      FilterMapFrom(s[1..], f, k');
      var j :| 0 <= j < |s[1..]| && f(s[1..][j]) == Some(FilterMap(s[1..], f)[k']);
      assert s[1..][j] == s[j + 1];
    }
  }

  lemma {:induction false} FilterMapKeeps<A, B>(s: seq<A>, f: A -> Option<B>, j: int)
    requires 0 <= j < |s| && f(s[j]).Some?
    ensures f(s[j]).value in FilterMap(s, f)
    decreases |s|
  {
    if j > 0 {
      FilterMapKeeps(s[1..], f, j - 1);
      assert s[1..][j - 1] == s[j];
    }
  }

  /** Rows are cleaned one by one: the output of a concatenation is the
      concatenation of the outputs, so surviving rows keep their order. */
  lemma CleanAppend(a: seq<Item>, b: seq<Item>)
    ensures Clean(a + b) == Clean(a) + Clean(b)
  {
    FilterMapAppend(a, b, CleanItem);
  }

  /** Every output record is the coercion of a surviving input row: one with a
      truthy numeric-or-text `Pedido` or `Nota Fiscal`. */
  lemma CleanFromSurvivor(items: seq<Item>, k: int)
    requires 0 <= k < |Clean(items)|
    ensures exists j :: 0 <= j < |items| && Accepts(items[j]) && CleanRow(items[j].row) == Some(Clean(items)[k])
  {
    FilterMapFrom(items, CleanItem, k);
  }

  /** Every surviving input row is in the output. */
  lemma SurvivorInClean(items: seq<Item>, j: int)
    requires 0 <= j < |items| && Accepts(items[j]) && CleanRow(items[j].row).Some?
    ensures CleanRow(items[j].row).value in Clean(items)
  {
    FilterMapKeeps(items, CleanItem, j);
  }

  /** One row yields its record when it survives, and nothing otherwise. */
  lemma CleanSingle(item: Item)
    ensures Clean([item]) == if Survives(item) then [CleanRow(item.row).value] else []
  {
    assert [item][1..] == [];
  }

  /** A row without a truthy numeric-or-text identifier never reaches the output. */
  lemma RowWithoutIdentifierDropped(a: seq<Item>, item: Item, b: seq<Item>)
    requires !Accepts(item)
    ensures Clean(a + [item] + b) == Clean(a) + Clean(b)
  {
    CleanAppend(a + [item], b);
    CleanAppend(a, [item]);
    CleanSingle(item);
  }

  /** `Valor do Transporte` is never read: changing it changes nothing. */
  lemma ShippingValueIgnored(row: Row, c: Cell)
    ensures Accepts(Object(row.(shippingValue := c))) == Accepts(Object(row))
    ensures CleanRow(row.(shippingValue := c)) == CleanRow(row)
  {
  }

  lemma ReadNatText(n: nat)
    ensures ReadInteger(NatToString(n)) == Int(n)
  {
    NatToStringRoundTrip(n);
  }

  lemma ReadNegativeText(n: nat)
    requires n > 0
    ensures ReadInteger(IntToString(-(n as int))) == Int(-(n as int))
  {
    var s := IntToString(-(n as int));
    NatToStringRoundTrip(n);
    assert s[1..] == NatToString(n);
    assert !AllDigits(s) by { assert !IsDigit(s[0]); }
  }

  /** On text with nothing to trim, `Number` is the integer reading of the text itself. */
  lemma NumberOfTrimmed(s: string)
    requires IsTrimmed(s)
    ensures StringToNumber(s) == ReadInteger(s)
  {
    TrimOfTrimmed(s);
  }

  /** `Number(String(i)) === i`: the decimal text of an integer reads back as that integer. */
  lemma NumberOfIntText(i: int)
    ensures StringToNumber(IntToString(i)) == Int(i)
  {
    NumberOfTrimmed(IntToString(i));
    if i >= 0 {
      ReadNatText(i);
    } else {
      ReadNegativeText(-i);
    }
  }

  /** The raw row a spreadsheet export gives for a record: every value as text,
      and empty text in a missing cell. */
  function RowOf(data: TrackingData): Row {
    Row(
      Str(IntToString(data.orderId)),
      Str(data.shipDate),
      Str(data.expectedDate),
      Str(if data.deliveryDate.Some? then data.deliveryDate.value else ""),
      Str(IntToString(data.invoiceId)),
      Str(data.city),
      Str(data.state),
      Str(data.carrier),
      Str(data.productValue),
      Str(IntToString(data.quantity)),
      Str(data.productType),
      Str(""),
      Str(data.model))
  }

  /** A record the normalizer can give back unchanged: trimmed non-empty texts,
      a non-zero quantity, and no shipping value. */
  predicate Canonical(data: TrackingData) {
    && TextTrimmed(data)
    && data.shipDate != "" && data.expectedDate != "" && data.city != "" && data.state != ""
    && data.carrier != "" && data.productValue != "" && data.productType != "" && data.model != ""
    && (data.deliveryDate.Some? ==> data.deliveryDate.value != "")
    && data.quantity != 0
    && data.shippingValue == None
  }

  lemma TextOfTrimmed(s: string, fallback: string)
    requires s != "" && IsTrimmed(s)
    ensures TextOr(Str(s), fallback) == s
  {
    TrimOfTrimmed(s);
  }

  lemma NumberOfIntCell(i: int, fallback: int)
    requires i != 0 || fallback == 0
    ensures NumberOr(Str(IntToString(i)), fallback) == i
  {
    var c := Str(IntToString(i));
    NumberOfIntText(i);
    assert Truthy(c);
    assert ToNumber(c) == Some(Int(i));
  }

  lemma OptionalOfExport(d: Option<string>)
    requires d.Some? ==> d.value != "" && IsTrimmed(d.value)
    ensures OptionalText(Str(if d.Some? then d.value else "")) == d
  {
    if d.Some? {
      TrimOfTrimmed(d.value);
    }
  }

  /** Normalizing the exported row of a canonical record gives that record back. */
  lemma CleanRowOfExport(data: TrackingData)
    requires Canonical(data)
    ensures Accepts(Object(RowOf(data)))
    ensures CleanRow(RowOf(data)) == Some(data)
  {
    var row := RowOf(data);
    assert IsIdentifier(row.order);
    assert !RowThrows(row) by {
      TextNeverThrows(row);
    }
    CoerceOfExport(data);
  }

  /** Text cells never make `Number` or `String` throw. */
  lemma TextNeverThrows(row: Row)
    requires row.order.Str? && row.invoice.Str? && row.quantity.Str?
    requires row.shipDate.Str? && row.expectedDate.Str? && row.deliveryDate.Str?
    requires row.city.Str? && row.state.Str? && row.carrier.Str?
    requires row.productValue.Str? && row.productType.Str? && row.model.Str?
    ensures !RowThrows(row)
  {
  }

  lemma CoerceOfExport(data: TrackingData)
    requires Canonical(data)
    ensures Coerce(RowOf(data)) == data
  {
    var r := Coerce(RowOf(data));
    assert r.orderId == data.orderId by { NumberOfIntCell(data.orderId, 0); }
    assert r.invoiceId == data.invoiceId by { NumberOfIntCell(data.invoiceId, 0); }
    assert r.quantity == data.quantity by { NumberOfIntCell(data.quantity, 1); }
    assert r.shipDate == data.shipDate by { TextOfTrimmed(data.shipDate, NotAvailable); }
    assert r.expectedDate == data.expectedDate by { TextOfTrimmed(data.expectedDate, NotAvailable); }
    assert r.deliveryDate == data.deliveryDate by { OptionalOfExport(data.deliveryDate); }
    assert r.city == data.city by { TextOfTrimmed(data.city, NotAvailable); }
    assert r.state == data.state by { TextOfTrimmed(data.state, NotAvailable); }
    assert r.carrier == data.carrier by { TextOfTrimmed(data.carrier, NotAvailable); }
    assert r.productValue == data.productValue by { TextOfTrimmed(data.productValue, ZeroMoney); }
    assert r.productType == data.productType by { TextOfTrimmed(data.productType, NotAvailable); }
    assert r.model == data.model by { TextOfTrimmed(data.model, NotAvailable); }
  }

  /** The record a row with nothing but a usable identifier gets: every default. */
  function Defaults(orderId: int, invoiceId: int): TrackingData {
    TrackingData(orderId, NotAvailable, NotAvailable, None, invoiceId, NotAvailable, NotAvailable,
                 NotAvailable, ZeroMoney, 1, NotAvailable, None, NotAvailable)
  }

  /** A row that has only numeric columns, all given as text, gets every text default. */
  lemma NumbersOnlyRow(order: string, invoice: string, quantity: string)
    ensures var row := EmptyRow.(order := Str(order), invoice := Str(invoice), quantity := Str(quantity));
            CleanRow(row) == Some(Defaults(NumberOr(Str(order), 0), NumberOr(Str(invoice), 0))
                                    .(quantity := NumberOr(Str(quantity), 1)))
  {
    var row := EmptyRow.(order := Str(order), invoice := Str(invoice), quantity := Str(quantity));
    assert !RowThrows(row);
    var r := Coerce(row);
    assert r.shipDate == NotAvailable && r.expectedDate == NotAvailable && r.deliveryDate == None;
    assert r.city == NotAvailable && r.state == NotAvailable && r.carrier == NotAvailable;
    assert r.productValue == ZeroMoney && r.productType == NotAvailable && r.model == NotAvailable;
  }

  /** `Pedido: "123"` with every other cell empty or missing yields exactly one
      record, with order number 123, quantity 1 and product value `R$ 0,00`;
      with `Pedido` and `Nota Fiscal` both empty text the row is dropped. */
  lemma OrderOnlyRow()
    ensures ValidateAndClean(Array([Object(EmptyRow.(order := Str("123"), invoice := Str(""), quantity := Str("")))]))
            == [Defaults(123, 0)]
    ensures ValidateAndClean(Array([Object(EmptyRow.(order := Str(""), invoice := Str("")))])) == []
    ensures ValidateAndClean(NotArray) == []
  {
    assert IntToString(123) == "123" by {
      assert NatToString(12) == "12";
    }
    NumberOfIntCell(123, 0);
    NumbersOnlyRow("123", "", "");
    CleanSingle(Object(EmptyRow.(order := Str("123"), invoice := Str(""), quantity := Str(""))));
    CleanSingle(Object(EmptyRow.(order := Str(""), invoice := Str(""))));
  }

  /** Identifier text of lower-case letters, such as `"abc"`, is no number:
      it passes the filter (it is truthy text) and becomes order number 0. */
  lemma NonNumericIdentifierBecomesZero(text: string)
    requires text != "" && forall i | 0 <= i < |text| :: 'a' <= text[i] <= 'z'
    ensures ValidateAndClean(Array([Object(EmptyRow.(order := Str(text), invoice := Str(""), quantity := Str("")))]))
            == [Defaults(0, 0)]
  {
    assert NumberOr(Str(text), 0) == 0 by {
      assert 'a' <= text[0] <= 'z' && 'a' <= text[|text| - 1] <= 'z';
      TrimOfTrimmed(text);
      assert !AllDigits(text);
      assert ReadInteger(text) == NaN;
    }
    NumbersOnlyRow(text, "", "");
    CleanSingle(Object(EmptyRow.(order := Str(text), invoice := Str(""), quantity := Str(""))));
  }

  /** `Quantidade` keeps a negative value. */
  lemma NegativeQuantityKept()
    ensures ValidateAndClean(Array([Object(EmptyRow.(order := Str("7"), invoice := Str(""), quantity := Str("-3")))]))
            == [Defaults(7, 0).(quantity := -3)]
  {
    assert NumberOr(Str("7"), 0) == 7 by {
      assert IntToString(7) == "7";
      NumberOfIntCell(7, 0);
    }
    assert NumberOr(Str("-3"), 1) == -3 by {
      assert IntToString(-3) == "-3";
      NumberOfIntCell(-3, 1);
    }
    NumbersOnlyRow("7", "", "-3");
    CleanSingle(Object(EmptyRow.(order := Str("7"), invoice := Str(""), quantity := Str("-3"))));
  }
}

=== FILE: result_view.dfy ===
/** The decisions `TrackingResult` (components/tracking-result.tsx) takes before
    it renders: the status badge, the two day counts, which timing box shows,
    and the singular or plural unit words. Markup and styling are not part of
    the model; `now` stands for `new Date()`. */
module ResultView {
  import opened Wrappers
  import opened Text
  import opened Calendar
  import opened Dates
  import opened Tracking
  import opened StatusEngine

  /** The green "Tempo de Entrega" box: days from shipping to delivery. */
  datatype TransitBox = TransitBox(days: int, unit: string)

  /** The "Atrasado há" (red) or "Faltam" (blue) box of an undelivered order. */
  datatype CountdownBox = CountdownBox(overdue: bool, caption: string, tone: Tone, count: nat, unit: string)

  datatype View = View(
    status: TrackingStatus,
    daysInTransit: Option<int>,
    daysUntilDelivery: Option<int>,
    showTiming: bool,            // the "Informações de Tempo" card
    transit: Option<TransitBox>,
    countdown: Option<CountdownBox>,
    quantityUnit: string)

  /** `n === 1 ? 'dia' : 'dias'`. */
  function DayUnit(n: int): (u: string)
    ensures u == "dia" <==> n == 1
    ensures u == "dia" || u == "dias"
  {
    if n == 1 then "dia" else "dias"
  }

  function Abs(n: int): (a: nat)
    ensures a == n || a == -n
  {
    if n < 0 then -n else n
  }

  /** Zeros in front of `s` up to `width` characters. */
  function PadLeft(s: string, width: nat): (r: string)
    ensures |r| >= width && |r| >= |s| && r[|r| - |s|..] == s
    ensures forall i | 0 <= i < |r| - |s| :: r[i] == '0'
    decreases width - |s|
  {
    if |s| >= width then s else PadLeft(['0'] + s, width)
  }

  /** `toISOString()`'s expanded date for a year outside 0..9999: a sign, six
      or more year digits, month and day. */
  function ExpandedYmd(d: Date): (t: string)
    requires ValidDate(d)
    ensures |t| >= 13 && (t[0] == '+' || t[0] == '-') && IsDigit(t[|t| - 1])
  {
    var sign := if d.year < 0 then '-' else '+';
    [sign] + PadLeft(NatToString(Abs(d.year)), 6)
      + ['-', DigitChar(d.month / 10), DigitChar(d.month % 10)]
      + ['-', DigitChar(d.day / 10), DigitChar(d.day % 10)]
  }

  /** `new Date().toISOString().split('T')[0]`, the calendar date of `now`. */
  function TodayText(now: int): (t: string)
    ensures var today := DateOfInstant(now);
            0 <= today.year <= 9999 ==> YmdShape(t) && ParseYmd(t) == Some(today)
    ensures var today := DateOfInstant(now);
            !(0 <= today.year <= 9999) ==> |t| >= 13 && (t[0] == '+' || t[0] == '-') && IsDigit(t[|t| - 1])
  {
    var today := DateOfInstant(now);
    if 0 <= today.year <= 9999 then
      ParseYmdFormatYmd(today);
      FormatYmd(today)
    else
      ExpandedYmd(today)
  }

  /** Today's text parses back to today's midnight, the start of the day that
      contains `now`, for a four-digit year; other years are the ISO reader's. */
  lemma TodayTextReadsBack(now: int, iso: IsoReader)
    ensures var today := DateOfInstant(now);
            0 <= today.year <= 9999 ==> ParseDate(TodayText(now), iso) == Some(Midnight(today))
    ensures var today := DateOfInstant(now);
            !(0 <= today.year <= 9999) ==> ParseDate(TodayText(now), iso) == iso(TodayText(now))
  {
    var today := DateOfInstant(now);
    var t := TodayText(now);
    if 0 <= today.year <= 9999 {
      YmdReading(today, iso);
    } else {
      assert IsTrimmed(t) && t != [] && t != "N/A";
      ParseDateOfTrimmed(t, iso);
    }
  }

  /** The box under "Informações de Tempo" for an order with a delivery date. */
  function TransitBoxOf(data: TrackingData, daysInTransit: Option<int>): (b: Option<TransitBox>)
    ensures b.Some? <==> HasDeliveryDate(data) && daysInTransit.Some?
    ensures b.Some? ==> b.value.days == daysInTransit.value && (b.value.unit == "dia" <==> b.value.days == 1)
  {
    if HasDeliveryDate(data) && daysInTransit.Some? then
      Some(TransitBox(daysInTransit.value, DayUnit(daysInTransit.value)))
    else None
  }

  /** The box under "Informações de Tempo" for an order without one. */
  function CountdownBoxOf(data: TrackingData, daysUntilDelivery: Option<int>): (b: Option<CountdownBox>)
    ensures b.Some? <==> !HasDeliveryDate(data) && daysUntilDelivery.Some?
    ensures b.Some? ==> var n := daysUntilDelivery.value;
              && (b.value.overdue <==> n < 0)
              && (b.value.overdue ==> b.value.caption == "Atrasado há" && b.value.tone == Red && b.value.count == -n)
              && (!b.value.overdue ==> b.value.caption == "Faltam" && b.value.tone == Blue && b.value.count == n)
              && (b.value.unit == "dia" <==> b.value.count == 1)
  {
    if HasDeliveryDate(data) || daysUntilDelivery.None? then None
    else
      var n := daysUntilDelivery.value;
      if n < 0 then Some(CountdownBox(true, "Atrasado há", Red, Abs(n), DayUnit(Abs(n))))
      else Some(CountdownBox(false, "Faltam", Blue, Abs(n), DayUnit(Abs(n))))
  }

  /** Everything `TrackingResult` decides for one record at time `now`. */
  function TrackingResult(data: TrackingData, now: int, iso: IsoReader): (v: View)
    ensures v.status == GetTrackingStatus(data, now, iso)
    ensures v.daysInTransit == CalculateDays(data.shipDate, data.deliveryDate, now, iso)
    ensures HasDeliveryDate(data) ==> v.daysUntilDelivery == None
    ensures !HasDeliveryDate(data) ==> v.daysUntilDelivery == CalculateDays(TodayText(now), Some(data.expectedDate), now, iso)
    ensures v.showTiming <==> v.daysInTransit.Some? || v.daysUntilDelivery.Some?
    ensures v.transit.None? || v.countdown.None?
    ensures v.transit.Some? || v.countdown.Some? ==> v.showTiming
    ensures v.quantityUnit == "item" <==> data.quantity == 1
  {
    var daysInTransit := CalculateDays(data.shipDate, data.deliveryDate, now, iso);
    var daysUntil := if HasDeliveryDate(data) then None
                     else CalculateDays(TodayText(now), Some(data.expectedDate), now, iso);
    View(
      GetTrackingStatus(data, now, iso),
      daysInTransit,
      daysUntil,
      daysInTransit.Some? || daysUntil.Some?,
      TransitBoxOf(data, daysInTransit),
      CountdownBoxOf(data, daysUntil),
      if data.quantity == 1 then "item" else "itens")
  }

  /** The green delivery-time box only shows for an order the badge calls delivered. */
  lemma TransitBoxMeansDelivered(data: TrackingData, now: int, iso: IsoReader)
    requires TrackingResult(data, now, iso).transit.Some?
    ensures TrackingResult(data, now, iso).status.status == Delivered
  {
    assert IsDelivered(data, iso);
  }

  /** A red "Atrasado há" box only shows for an order the badge calls delayed
      (for a current year of four digits). */
  lemma OverdueBoxMeansDelayed(data: TrackingData, now: int, iso: IsoReader)
    requires 0 <= DateOfInstant(now).year <= 9999
    requires var v := TrackingResult(data, now, iso); v.countdown.Some? && v.countdown.value.overdue
    ensures TrackingResult(data, now, iso).status.status == Delayed
  {
    var today := DateOfInstant(now);
    TodayTextReadsBack(now, iso);
    var expected := ParseDate(data.expectedDate, iso);
    assert TruthyText(Some(data.expectedDate));
    assert expected.Some? && expected.value < Midnight(today);
    assert IsOverdue(data, now, iso);
  }

  /** Before the expected day, the blue box counts the whole days left to it. */
  lemma CountdownBeforeExpectedDay(data: TrackingData, now: int, iso: IsoReader, expected: Date)
    requires !HasDeliveryDate(data)
    requires ValidDate(expected) && BrYear(expected.year) && data.expectedDate == FormatBr(expected)
    requires 0 <= DateOfInstant(now).year <= 9999
    requires DayNumber(DateOfInstant(now)) <= DayNumber(expected)
    ensures var b := TrackingResult(data, now, iso).countdown;
            b.Some? && !b.value.overdue && b.value.caption == "Faltam"
            && b.value.count == DayNumber(expected) - DayNumber(DateOfInstant(now))
  {
    var today := DateOfInstant(now);
    TodayTextReadsBack(now, iso);
    FormatBrIsPlainText(expected);
    TrimOfTrimmed(data.expectedDate);
    BrReadingWins(data.expectedDate, expected, iso);
    DiffDaysOfMidnights(expected, today);
  }

  /** On the expected day itself, after midnight, the badge already says
      "Atrasado" while the box still says "Faltam 0 dias". */
  lemma DueTodayShowsBoth(data: TrackingData, now: int, iso: IsoReader)
    requires !HasDeliveryDate(data)
    requires BrYear(DateOfInstant(now).year)
    requires data.expectedDate == FormatBr(DateOfInstant(now))
    requires now > Midnight(DateOfInstant(now))
    ensures var v := TrackingResult(data, now, iso);
            v.status.status == Delayed && v.status.caption == "Atrasado"
            && v.countdown == Some(CountdownBox(false, "Faltam", Blue, 0, "dias"))
  {
    var v := TrackingResult(data, now, iso);
    DueTodayIsDelayed(data, now, iso);
    assert v.status == Describe(Delayed);
    CountdownBeforeExpectedDay(data, now, iso, DateOfInstant(now));
    var b := v.countdown.value;
    assert !b.overdue && b.count == 0;
    assert b.tone == Blue && b.unit == "dias";
  }

  /** Shipped on 01/01/2025 and delivered on 03/01/2025: two days in transit,
      no countdown, and the badge says delivered. */
  lemma DeliveredExample(data: TrackingData, now: int, iso: IsoReader)
    requires data.shipDate == "01/01/2025" && data.deliveryDate == Some("03/01/2025")
    ensures var v := TrackingResult(data, now, iso);
            v.daysInTransit == Some(2) && v.daysUntilDelivery == None
            && v.transit == Some(TransitBox(2, "dias")) && v.countdown == None
            && v.status.status == Delivered
  {
    var a := Date(2025, 1, 1);
    var b := Date(2025, 1, 3);
    assert FormatBr(a) == "01/01/2025";
    assert FormatBr(b) == "03/01/2025";
    DaysBetweenBrDates(a, b, now, iso);
    DiffDaysOfMidnights(b, a);
    FormatBrIsPlainText(b);
    TrimOfTrimmed(FormatBr(b));
    BrReadingWins(FormatBr(b), b, iso);
  }
}

=== FILE: search.dfy ===
/** The `find` of `useTrackingSearch` (hooks/use-tracking.ts): the first loaded
    record whose order number or invoice number, as text, contains the trimmed
    query. An equal identifier is a special case of containment, so an exact
    match later in the feed does not beat a containing one earlier. */
module Search {
  import opened Wrappers
  import opened Text
  import opened Tracking
  import opened Normalizer

  /** `String(n || '').trim()` for a numeric identifier: 0 reads as empty text. */
  function IdText(id: int): (s: string)
    ensures s == "" <==> id == 0
  {
    if id == 0 then "" else IntToString(id)
  }

  /** The identifier text is the decimal text of the number: `Number` reads
      it back, and trimming leaves it as it is. */
  lemma IdTextReadsBack(id: int)
    requires id != 0
    ensures StringToNumber(IdText(id)) == Int(id)
    ensures Trim(IntToString(id)) == IdText(id)
  {
    NumberOfIntText(id);
    TrimOfTrimmed(IntToString(id));
  }

  /** The callback of `find` once the query is known to be non-blank text `q`. */
  predicate Matches(data: TrackingData, q: string) {
    var order := IdText(data.orderId);
    var invoice := IdText(data.invoiceId);
    order == q || invoice == q || Contains(order, q) || Contains(invoice, q)
  }

  /** `Matches` with the query fixed, as the callback handed to `find`. */
  function MatchesQuery(q: string): TrackingData -> bool {
    d => Matches(d, q)
  }

  /** The index `Array.prototype.find` stops at, scanning from `from`: the
      first element that satisfies `p`. */
  function FirstIndex<T>(s: seq<T>, p: T -> bool, from: nat): (r: Option<nat>)
    requires from <= |s|
    ensures r.Some? ==> from <= r.value < |s| && p(s[r.value])
    ensures r.Some? ==> forall j | from <= j < r.value :: !p(s[j])
    ensures r.None? ==> forall j | from <= j < |s| :: !p(s[j])
    decreases |s| - from
  {
    if from == |s| then None
    else if p(s[from]) then Some(from)
    else FirstIndex(s, p, from + 1)
  }

  /** The `find` proper, for a non-blank trimmed query `q`: the first record that matches. */
  function FindIn(records: seq<TrackingData>, q: string): (r: Option<TrackingData>)
    ensures r.Some? ==> exists i :: 0 <= i < |records| && records[i] == r.value && Matches(r.value, q)
                                   && forall j | 0 <= j < i :: !Matches(records[j], q)
    ensures r.None? ==> forall j | 0 <= j < |records| :: !Matches(records[j], q)
  {
    match FirstIndex(records, MatchesQuery(q), 0)
    case Some(i) => Some(records[i])
    case None => None
  }

  /** `allData?.find(...) || null`; `data` is `None` while nothing is loaded. */
  function Find(data: Option<seq<TrackingData>>, query: string): (r: Option<TrackingData>)
    ensures data.None? || IsBlank(query) ==> r == None
    ensures r.Some? ==> exists i :: 0 <= i < |data.value| && data.value[i] == r.value
                                   && Matches(r.value, Trim(query))
                                   && forall j | 0 <= j < i :: !Matches(data.value[j], Trim(query))
    ensures data.Some? && !IsBlank(query) && r.None? ==>
              forall j | 0 <= j < |data.value| :: !Matches(data.value[j], Trim(query))
  {
    TrimEmptyIffBlank(query);
    if data.None? || query == "" || Trim(query) == "" then None
    else FindIn(data.value, Trim(query))
  }

  /** Equality adds nothing to containment: the test is containment alone. */
  lemma MatchesIsContainment(data: TrackingData, q: string)
    ensures Matches(data, q) <==> Contains(IdText(data.orderId), q) || Contains(IdText(data.invoiceId), q)
  {
    ContainsSelf(IdText(data.orderId));
    ContainsSelf(IdText(data.invoiceId));
  }

  /** The first satisfying index is the one `FirstIndex` returns. */
  lemma FirstIndexIs<T>(s: seq<T>, p: T -> bool, k: nat)
    requires k < |s| && p(s[k])
    requires forall j | 0 <= j < k :: !p(s[j])
    ensures FirstIndex(s, p, 0) == Some(k)
  {
  }

  lemma NoneSatisfies<T>(s: seq<T>, p: T -> bool)
    requires forall j | 0 <= j < |s| :: !p(s[j])
    ensures FirstIndex(s, p, 0) == None
  {
  }

  /** `FirstIndex` over a concatenation: the first part's hit, or else the
      second part's hit shifted past the first part. */
  lemma FirstIndexAppend<T>(a: seq<T>, b: seq<T>, p: T -> bool)
    ensures FirstIndex(a, p, 0).Some? ==> FirstIndex(a + b, p, 0) == FirstIndex(a, p, 0)
    ensures FirstIndex(a, p, 0).None? && FirstIndex(b, p, 0).Some? ==>
              FirstIndex(a + b, p, 0) == Some(|a| + FirstIndex(b, p, 0).value)
    ensures FirstIndex(a, p, 0).None? && FirstIndex(b, p, 0).None? ==> FirstIndex(a + b, p, 0) == None
  {
    match FirstIndex(a, p, 0)
    case Some(i) =>
      forall j | 0 <= j < i
        ensures !p((a + b)[j])
      {
        assert (a + b)[j] == a[j];
      }
      assert (a + b)[i] == a[i];
      FirstIndexIs(a + b, p, i);
    case None =>
      match FirstIndex(b, p, 0)
      case Some(m) =>
        forall j | 0 <= j < |a| + m
          ensures !p((a + b)[j])
        {
          if j < |a| {
            assert (a + b)[j] == a[j];
          } else {
            assert (a + b)[j] == b[j - |a|];
          }
        }
        assert (a + b)[|a| + m] == b[m];
        FirstIndexIs(a + b, p, |a| + m);
      case None =>
        forall j | 0 <= j < |a + b|
          ensures !p((a + b)[j])
        {
          if j < |a| {
            assert (a + b)[j] == a[j];
          } else {
            assert (a + b)[j] == b[j - |a|];
          }
        }
        NoneSatisfies(a + b, p);
  }

  /** A non-blank query finds the first record that matches it, whichever that is. */
  lemma FindIs(records: seq<TrackingData>, query: string, k: nat)
    requires !IsBlank(query)
    requires k < |records| && Matches(records[k], Trim(query))
    requires forall j | 0 <= j < k :: !Matches(records[j], Trim(query))
    ensures Find(Some(records), query) == Some(records[k])
  {
    TrimEmptyIffBlank(query);
    FirstIndexIs(records, MatchesQuery(Trim(query)), k);
  }

  /** ... and nothing when no record matches. */
  lemma FindNone(records: seq<TrackingData>, query: string)
    requires forall j | 0 <= j < |records| :: !Matches(records[j], Trim(query))
    ensures Find(Some(records), query) == None
  {
    TrimEmptyIffBlank(query);
    NoneSatisfies(records, MatchesQuery(Trim(query)));
  }

  /** For a non-blank query, `Find` is the record at `FirstIndex`. */
  lemma FindByIndex(records: seq<TrackingData>, query: string)
    requires !IsBlank(query)
    ensures var i := FirstIndex(records, MatchesQuery(Trim(query)), 0);
            Find(Some(records), query) == if i.Some? then Some(records[i.value]) else None
  {
    TrimEmptyIffBlank(query);
  }

  /** Records loaded after a hit do not change the answer, and after a miss
      the answer is the one the records that follow give. */
  lemma FindAppend(a: seq<TrackingData>, b: seq<TrackingData>, query: string)
    ensures Find(Some(a), query).Some? ==> Find(Some(a + b), query) == Find(Some(a), query)
    ensures Find(Some(a), query).None? ==> Find(Some(a + b), query) == Find(Some(b), query)
  {
    if !IsBlank(query) {
      var p := MatchesQuery(Trim(query));
      FindByIndex(a, query);
      FindByIndex(b, query);
      FindByIndex(a + b, query);
      FirstIndexAppend(a, b, p);
      var i := FirstIndex(a, p, 0);
      var m := FirstIndex(b, p, 0);
      if i.Some? {
        assert (a + b)[i.value] == a[i.value];
      } else if m.Some? {
        assert (a + b)[|a| + m.value] == b[m.value];
      }
    }
  }

  /** The query is trimmed before use: surrounding white space changes nothing. */
  lemma FindTrimsQuery(data: Option<seq<TrackingData>>, query: string)
    ensures Find(data, query) == Find(data, Trim(query))
  {
    TrimIdempotent(query);
    TrimEmptyIffBlank(query);
    TrimEmptyIffBlank(Trim(query));
  }

  lemma IdTextOf1009()
    ensures IdText(1009) == "1009"
  {
    assert NatToString(100) == "100";
  }

  lemma FragmentsOf1009()
    ensures Contains("1009", "100") && Contains("1009", "009")
  {
    assert StartsWith("1009", "100");
    assert StartsWith("1009"[1..], "009");
  }

  /** Digit text has nothing to trim and is not blank. */
  lemma PlainQuery(q: string)
    requires q != [] && AllDigits(q)
    ensures !IsBlank(q) && Trim(q) == q
  {
    assert IsDigit(q[0]) && IsDigit(q[|q| - 1]);
    TrimOfTrimmed(q);
  }

  /** Order 1009 precedes order 100 in the feed; the query `100` finds order
      1009, whose number contains it, and not the exact match. */
  lemma ContainingBeatsExact(first: TrackingData, second: TrackingData, query: string)
    requires first.orderId == 1009 && second.orderId == 100 && query == "100"
    ensures Find(Some([first, second]), query) == Some(first)
  {
    PlainQuery(query);
    assert Matches(first, query) by {
      IdTextOf1009();
      FragmentsOf1009();
    }
    FindIs([first, second], query, 0);
  }

  /** A fragment from the middle of the number finds it too. */
  lemma FragmentFinds(record: TrackingData, query: string)
    requires record.orderId == 1009 && query == "009"
    ensures Find(Some([record]), query) == Some(record)
  {
    PlainQuery(query);
    assert Matches(record, query) by {
      IdTextOf1009();
      FragmentsOf1009();
    }
    FindIs([record], query, 0);
  }

  /** Order number 0 has empty text, which contains no non-empty query. */
  lemma ZeroIdentifierNeverMatches(data: TrackingData, q: string)
    requires data.orderId == 0 && data.invoiceId == 0 && q != ""
    ensures !Matches(data, q)
  {
  }
}

=== FILE: status.dfy ===
/** `getTrackingStatus` (hooks/use-tracking.ts): the first matching rule of
    delivered, delayed, shipped, pending. The clock reading `now` is a
    parameter instead of `new Date()`. */
module StatusEngine {
  import opened Wrappers
  import opened Text
  import opened Calendar
  import opened Dates
  import opened Tracking

  /** `'Data de Entrega'` is truthy and parses. */
  predicate IsDelivered(data: TrackingData, iso: IsoReader) {
    HasDeliveryDate(data) && ParseDate(data.deliveryDate.value, iso).Some?
  }

  /** `'Previsao de Entrega'` parses and `now` is strictly after it. */
  predicate IsOverdue(data: TrackingData, now: int, iso: IsoReader) {
    var expected := ParseDate(data.expectedDate, iso);
    expected.Some? && now > expected.value
  }

  predicate IsShipped(data: TrackingData, iso: IsoReader) {
    ParseDate(data.shipDate, iso).Some?
  }

  function GetTrackingStatus(data: TrackingData, now: int, iso: IsoReader): (r: TrackingStatus)
    ensures r == Describe(r.status)
    ensures r.status == Delivered <==> IsDelivered(data, iso)
    ensures r.status == Delayed <==> !IsDelivered(data, iso) && IsOverdue(data, now, iso)
    ensures r.status == Shipped <==> !IsDelivered(data, iso) && !IsOverdue(data, now, iso) && IsShipped(data, iso)
    ensures r.status == Pending <==> !IsDelivered(data, iso) && !IsOverdue(data, now, iso) && !IsShipped(data, iso)
  {
    var delivery := if HasDeliveryDate(data) then ParseDate(data.deliveryDate.value, iso) else None;
    var expected := ParseDate(data.expectedDate, iso);
    if delivery.Some? then Describe(Delivered)
    else if expected.Some? && now > expected.value then Describe(Delayed)
    else if ParseDate(data.shipDate, iso).Some? then Describe(Shipped)
    else Describe(Pending)
  }

  /** A parseable delivery date decides the status whatever the expected and
      ship dates say and whatever the time. */
  lemma DeliveredWhateverElse(data: TrackingData, ship: string, expected: string, now: int, now': int, iso: IsoReader)
    requires GetTrackingStatus(data, now, iso).status == Delivered
    ensures GetTrackingStatus(data.(shipDate := ship, expectedDate := expected), now', iso).status == Delivered
  {
    assert IsDelivered(data, iso);
    assert IsDelivered(data.(shipDate := ship, expectedDate := expected), iso);
  }

  /** As time passes a status can only turn into `Delayed`, and `Delayed` stays. */
  lemma StatusOverTime(data: TrackingData, now: int, later: int, iso: IsoReader)
    requires now <= later
    ensures var before := GetTrackingStatus(data, now, iso).status;
            var after := GetTrackingStatus(data, later, iso).status;
            after == before || after == Delayed
    ensures GetTrackingStatus(data, now, iso).status == Delayed ==> GetTrackingStatus(data, later, iso).status == Delayed
  {
    if IsOverdue(data, now, iso) {
      assert IsOverdue(data, later, iso);
    }
  }

  /** A shipment expected today (as `dd/MM/yyyy`) and not delivered counts as
      delayed as soon as the clock is past midnight. */
  lemma DueTodayIsDelayed(data: TrackingData, now: int, iso: IsoReader)
    requires !HasDeliveryDate(data)
    requires BrYear(DateOfInstant(now).year)
    requires data.expectedDate == FormatBr(DateOfInstant(now))
    requires now > Midnight(DateOfInstant(now))
    ensures GetTrackingStatus(data, now, iso).status == Delayed
  {
    var today := DateOfInstant(now);
    FormatBrIsPlainText(today);
    TrimOfTrimmed(data.expectedDate);
    BrReadingWins(data.expectedDate, today, iso);
  }

  /** The four labels differ, so the label alone tells the state. */
  lemma LabelsDistinguishStates(s: Status, t: Status)
    requires Describe(s).caption == Describe(t).caption
    ensures s == t
  {
  }
}

=== FILE: text.dfy ===
/** The JavaScript string built-ins the tracking code relies on: `trim`,
    `includes`, the decimal text of an integer, and the truthiness of text. */
module Text {
  import opened Wrappers

  /** ECMAScript WhiteSpace and LineTerminator code points: what `String.prototype.trim` strips. */
  predicate IsSpace(c: char) {
    || c == '\t' || c == '\n' || c == '\U{000B}' || c == '\U{000C}' || c == '\r' || c == ' '
    || c == '\U{00A0}' || c == '\U{1680}' || ('\U{2000}' <= c <= '\U{200A}')
    || c == '\U{2028}' || c == '\U{2029}' || c == '\U{202F}' || c == '\U{205F}'
    || c == '\U{3000}' || c == '\U{FEFF}'
  }

  predicate IsBlank(s: string) {
    forall i :: 0 <= i < |s| ==> IsSpace(s[i])
  }

  /** No white space at either end: what `trim` leaves behind. */
  predicate IsTrimmed(s: string) {
    s == [] || (!IsSpace(s[0]) && !IsSpace(s[|s| - 1]))
  }

  function TrimStart(s: string): (r: string)
    ensures |r| <= |s| && r == s[|s| - |r|..]
    ensures IsBlank(s[..|s| - |r|])
    ensures r == [] || !IsSpace(r[0])
  {
    if |s| > 0 && IsSpace(s[0]) then
      var r := TrimStart(s[1..]);
      assert s[..|s| - |r|] == [s[0]] + s[1..][..|s| - 1 - |r|];
      r
    else
      s
  }

  function TrimEnd(s: string): (r: string)
    ensures |r| <= |s| && r == s[..|r|]
    ensures IsBlank(s[|r|..])
    ensures r == [] || !IsSpace(r[|r| - 1])
  {
    if |s| > 0 && IsSpace(s[|s| - 1]) then
      var r := TrimEnd(s[..|s| - 1]);
      assert s[|r|..] == s[..|s| - 1][|r|..] + [s[|s| - 1]];
      r
    else
      s
  }

  /** `String.prototype.trim`. */
  function Trim(s: string): (r: string)
    ensures |r| <= |s| && IsTrimmed(r)
  {
    TrimEnd(TrimStart(s))
  }

  /** What `trim` removes is white space, from the two ends only. */
  lemma TrimIsMiddle(s: string)
    ensures exists i, j :: 0 <= i <= j <= |s| && Trim(s) == s[i..j] && IsBlank(s[..i]) && IsBlank(s[j..])
  {
    var t := TrimStart(s);
    var r := TrimEnd(t);
    var i := |s| - |t|;
    assert r == s[i..i + |r|];
    assert s[i + |r|..] == t[|r|..];
  }

  lemma TrimOfTrimmed(s: string)
    requires IsTrimmed(s)
    ensures Trim(s) == s
  {
  }

  lemma TrimIdempotent(s: string)
    ensures Trim(Trim(s)) == Trim(s)
  {
    TrimOfTrimmed(Trim(s));
  }

  lemma BlankTrimsToEmpty(s: string)
    requires IsBlank(s)
    ensures Trim(s) == []
  {
    TrimIsMiddle(s);
  }

  lemma EmptyTrimIsBlank(s: string)
    requires Trim(s) == []
    ensures IsBlank(s)
  {
    TrimIsMiddle(s);
    var i, j :| 0 <= i <= j <= |s| && Trim(s) == s[i..j] && IsBlank(s[..i]) && IsBlank(s[j..]);
    forall k | 0 <= k < |s|
      ensures IsSpace(s[k])
    {
      if k < i {
        assert s[..i][k] == s[k];
      } else {
        assert s[j..][k - j] == s[k];
      }
    }
  }

  /** `s.trim() === ''` holds exactly for the all-white-space texts. */
  lemma TrimEmptyIffBlank(s: string)
    ensures Trim(s) == [] <==> IsBlank(s)
  {
    if Trim(s) == [] {
      EmptyTrimIsBlank(s);
    }
    if IsBlank(s) {
      BlankTrimsToEmpty(s);
    }
  }

  /** JavaScript truthiness of an optional text: present and not empty. */
  predicate TruthyText(s: Option<string>) {
    s.Some? && s.value != ""
  }

  predicate IsDigit(c: char) {
    '0' <= c <= '9'
  }

  predicate AllDigits(s: string) {
    forall i :: 0 <= i < |s| ==> IsDigit(s[i])
  }

  function DigitValue(c: char): (n: nat)
    requires IsDigit(c)
    ensures n < 10
  {
    c as int - '0' as int
  }

  function DigitChar(n: nat): (c: char)
    requires n < 10
    ensures IsDigit(c) && DigitValue(c) == n
  {
    ('0' as int + n) as char
  }

  /** The value of a run of decimal digits; the empty run reads as 0. */
  function NatValue(s: string): nat
    requires AllDigits(s)
  {
    if s == [] then 0 else 10 * NatValue(s[..|s| - 1]) + DigitValue(s[|s| - 1])
  }

  /** The shortest decimal text of `n`. */
  function NatToString(n: nat): (s: string)
    ensures |s| > 0 && AllDigits(s)
    ensures |s| > 1 ==> s[0] != '0'
    decreases n
  {
    if n < 10 then [DigitChar(n)] else NatToString(n / 10) + [DigitChar(n % 10)]
  }

  lemma {:induction false} NatToStringRoundTrip(n: nat)
    ensures NatValue(NatToString(n)) == n
    decreases n
  {
    if n >= 10 {
      NatToStringRoundTrip(n / 10);
      var s := NatToString(n);
      assert s[..|s| - 1] == NatToString(n / 10);
    }
  }

  /** `String(i)` for an integer-valued JavaScript number, written out in full:
      JavaScript switches to exponent notation from 1e21 on, which is not modelled. */
  function IntToString(i: int): (s: string)
    ensures |s| > 0 && IsTrimmed(s)
    ensures i >= 0 ==> AllDigits(s)
    ensures i < 0 ==> s[0] == '-' && AllDigits(s[1..]) && |s| > 1
  {
    if i < 0 then "-" + NatToString(-i) else NatToString(i)
  }

  predicate StartsWith(s: string, t: string) {
    |t| <= |s| && s[..|t|] == t
  }

  /** `s.includes(t)`: `t` occurs in `s` at some position. */
  predicate Contains(s: string, t: string)
    decreases |s|
  {
    StartsWith(s, t) || (s != [] && Contains(s[1..], t))
  }

  /** `t` is the slice of `s` that starts at position `i`. */
  predicate OccursAt(s: string, t: string, i: int) {
    0 <= i <= |s| - |t| && s[i..i + |t|] == t
  }

  /** `Contains` is `includes`: `t` occurs in `s` at some position. */
  lemma {:induction false} ContainsIffOccurs(s: string, t: string)
    ensures Contains(s, t) <==> exists i :: OccursAt(s, t, i)
    decreases |s|
  {
    if StartsWith(s, t) {
      assert OccursAt(s, t, 0);
    } else if s == [] {
    } else {
      ContainsIffOccurs(s[1..], t);
      if exists i :: OccursAt(s, t, i) {
        var i :| OccursAt(s, t, i);
        assert i != 0;
        assert OccursAt(s[1..], t, i - 1);
      }
      if Contains(s[1..], t) {
        var i :| OccursAt(s[1..], t, i);
        assert s[1..][i..i + |t|] == s[i + 1..i + 1 + |t|];
        assert OccursAt(s, t, i + 1);
      }
    }
  }

  lemma ContainsSelf(s: string)
    ensures Contains(s, s)
  {
    assert StartsWith(s, s);
  }
}

=== FILE: tracking.dfy ===
/** The record and status types of types/tracking.ts. */
module Tracking {
  import opened Wrappers
  import opened Text

  /** One normalized row of the feed (`TrackingData`); the comment on each
      field gives its column label. */
  datatype TrackingData = TrackingData(
    orderId: int,               // Pedido
    shipDate: string,           // Data de Envio
    expectedDate: string,       // Previsao de Entrega
    deliveryDate: Option<string>, // Data de Entrega (optional)
    invoiceId: int,             // Nota Fiscal
    city: string,               // Cidade
    state: string,              // Estado
    carrier: string,            // Transportadora
    productValue: string,       // Valor do Produto
    quantity: int,              // Quantidade
    productType: string,        // Tipo do Produto
    shippingValue: Option<string>, // Valor do Transporte: declared required, yet never filled in
    model: string               // Modelo
  )

  /** The four states of `TrackingStatus.status`. */
  datatype Status = Pending | Shipped | Delivered | Delayed

  /** The colour family of the `color` and `bgColor` classes of a status. */
  datatype Tone = Green | Red | Blue | Yellow

  datatype TrackingStatus = TrackingStatus(status: Status, caption: string, tone: Tone)  // caption: the `label` field

  /** The fixed label and colours that come with each status. */
  function Describe(s: Status): (r: TrackingStatus)
    ensures r.status == s
  {
    match s
    case Delivered => TrackingStatus(Delivered, "Entregue", Green)
    case Delayed => TrackingStatus(Delayed, "Atrasado", Red)
    case Shipped => TrackingStatus(Shipped, "Em Trânsito", Blue)
    case Pending => TrackingStatus(Pending, "Processando", Yellow)
  }

  /** JavaScript truthiness of the optional `'Data de Entrega'`. */
  predicate HasDeliveryDate(data: TrackingData) {
    TruthyText(data.deliveryDate)
  }
}

=== FILE: wrappers.dfy ===
/** Optional values, usable with `:-` in expressions. */
module Wrappers {

  /** `None` stands for JavaScript's `null` or `undefined`, and for a step that failed. */
  datatype Option<+T> = None | Some(value: T) {

    predicate IsFailure() {
      None?
    }

    function PropagateFailure<U>(): Option<U>
      requires None?
    {
      None
    }

    function Extract(): T
      requires Some?
    {
      value
    }
  }
}
